=== FILE: README.md ===
# chappy3 in Dafny

chappy3 is a small chat application. An Express server keeps channels, messages, user
profiles and direct messages in a single DynamoDB table, and a React client shows the
channels and the conversations. This project models the server's routes and its JWT
middleware, the table they read and write, and the client's chat page and stores. It then
proves what those routes and pages promise.

- **The table.** `Store.Table` is a class whose `items` field maps each `(pk, sk)` key to its
  item.
  - `Put` and `Delete` replace or remove one key.
  - `Query` returns the items of one partition whose sort key starts with a prefix. Each
    item is returned once, in ascending sort-key order.
  - `Scan` returns the items whose partition and sort keys both start with given prefixes,
    each once, in an order the model leaves open.
  - A failing `db.send` is a `fault` parameter of each route. It takes the route to its 500
    reply and leaves the table unchanged.
- **The key scheme** (`Keys`). The tags are `CHANNEL#`, `MESSAGE#`, `META#`, `USER#`,
  `PROFILE#` and `DM#`.
  - `Untag` recovers the name from a tagged key.
  - Each key builder is injective.
  - The tags are prefix-disjoint, so the channel, message, profile and DM families never
    overlap.
- **Timestamps** (`IsoTime`). A message's sort key and `createdAt` are the ISO 8601 /
  RFC 3339 text of the current instant: `YYYY-MM-DDTHH:mm:ss.sssZ`, as `toISOString` writes
  it. `IsoOrder` proves that comparing two such strings character by character gives
  exactly chronological order. So a channel's history, listed by sort key, is
  chronological.
- **The routes.**
  - The messages router (`MessageRoutes`) has three routes: `GET /:channel`,
    `POST /:channel` and `GET /dm/:username`. The model includes its Express route
    matching.
  - The channels router (`ChannelRoutes`) applies the guest filter on `isPrivate`.
  - The users router (`UserRoutes`) has the profile projection and profile deletion.
- **The middleware** (`Auth`). `verifyToken` turns the `Authorization` header into
  `req.user` and `req.isGuest` and always calls `next`.
- **The client** (`ChatView`, `ChatSort`, `UserStore`, `ChannelStore`).
  - The `Messages` page works out from its route whether it shows a DM and who the target
    is.
  - When it fetches, it sorts the fetched array in place by `createdAt`. The sort is an
    insertion sort on an array, proved sorted, a permutation and stable.
  - When it sends, it decides whether to post and what body to post, and appends the
    stored item.
  - The two zustand stores hold the session and the channel list.

The clock, the JWT check, the request-body schema and `Date` parsing are parameters: the
current `Instant`, a function `verify`, a `Parsed` body and a function `time`. The guest
flag is an input, as the middleware leaves it on the request.

How the code handles direct messages, privacy and ordering:

- Direct messages have no canonical pair key. They live only under `USER#<name>` with sort
  keys starting `DM#`, and none of the routes modelled here writes them.
- The server has no route that accepts a DM post.
- The client's DM paths (`/dm/<user>/<target>` to fetch, `/dm/<target>` to post) reach no
  route, as `ChatView.DmPathsUnrouted` shows.
- Message routes check no channel privacy and no guest status. Only the channel list is
  filtered for guests, and only when `verifyToken` has run.
- Message order comes from the table's sort-key order, and the client re-sorts.

## Model

| member | source | states |
|---|---|---|
| Strings.Trim | src/pages/Messages.tsx:66 | the trimmed text is the slice of the input that starts after its leading JavaScript white space and line terminators and is followed by such characters only, and it neither starts nor ends with one |
| Strings.TrimEmptyIff | src/pages/Messages.tsx:66 | an input trims to empty exactly when every character is white space |
| Strings.ReplaceFirstAt | src/pages/Messages.tsx:20 | `replace` with a string pattern replaces exactly the first occurrence and keeps the rest |
| Strings.ReplaceAbsent | src/pages/Messages.tsx:20 | `replace` of a pattern that does not occur leaves the string unchanged |
| Strings.Split | srcServer/auth/authMiddleware.ts:24 | `split` yields at least one piece and no piece contains the separator |
| Strings.SplitJoin | srcServer/auth/authMiddleware.ts:24 | joining the pieces of a split with the separator gives back the string |
| Strings.LessTotal | srcServer/routes/messages.ts:17-24 | the string order the table sorts by is total: of two different keys one is smaller |
| Strings.LessTransitive | srcServer/routes/messages.ts:17-24 | the sort-key order is transitive |
| Keys.ChannelPk | srcServer/routes/messages.ts:53 | `CHANNEL#${channel}` untags back to the channel |
| Keys.MessageSk | srcServer/routes/messages.ts:54 | `MESSAGE#${timestamp}` untags back to the timestamp |
| Keys.UserPk | srcServer/routes/users.ts:44 | `USER#${username}` untags back to the user name |
| Keys.ProfileSk | srcServer/routes/users.ts:45 | `PROFILE#${username}` untags back to the user name |
| Keys.Untag | srcServer/routes/messages.ts:53-54 | untagging succeeds exactly when the key starts with the tag and gives back the rest of the key |
| Keys.UntagTag | srcServer/routes/messages.ts:53-54 | untagging a tagged name gives back the name |
| Keys.ChannelPkInjective | srcServer/routes/messages.ts:53 | two channels share a partition key only when they are the same channel |
| Keys.MessageSkInjective | srcServer/routes/messages.ts:54 | two timestamps give the same sort key only when they are equal |
| Keys.UserPkInjective | srcServer/routes/users.ts:44 | two user names give the same partition key only when they are equal |
| Keys.ChannelUserDisjoint | srcServer/routes/messages.ts:91 | no key starts with both `CHANNEL#` and `USER#` |
| Keys.ChannelPkNotUserPk | srcServer/routes/messages.ts:91 | a channel's partition key is never a user's |
| Keys.SortTagsDisjoint | srcServer/routes/channels.ts:18-19 | no sort key starts with two of `MESSAGE#`, `META#`, `PROFILE#`, `DM#`, for all six pairs |
| IsoTime.IsoStringLength | srcServer/routes/messages.ts:50 | the timestamp text of every valid instant has the fixed length 24 |
| IsoTime.IsoOrder | srcServer/routes/messages.ts:50 | for valid instants, timestamp text order is chronological order and equal texts mean equal instants |
| IsoTime.BeforeTotal | srcServer/routes/messages.ts:50 | of two different instants one is earlier |
| IsoTime.DigitsOrder | srcServer/routes/messages.ts:50 | zero-padded fixed-width digits compare as the numbers do |
| Store.Table.constructor | srcServer/routes/messages.ts:2 | the model's initial state of the shared `db` table: empty and well keyed |
| Store.Table.Put | srcServer/routes/messages.ts:60-65 | a put stores the item under its key, replacing any item there, and changes no other key |
| Store.Table.Delete | srcServer/routes/users.ts:41-49 | a delete removes the key, whether present or not, and changes no other key |
| Store.Table.Query | srcServer/routes/messages.ts:17-26 | a query lists every item of the partition whose sort key has the prefix and nothing else, each once, in ascending sort-key order |
| Store.Table.Scan | srcServer/routes/channels.ts:13-23 | a filtered scan lists every item whose keys have both prefixes and nothing else, each once |
| Store.ListsSelected | srcServer/routes/messages.ts:26-27 | an item is in a listing exactly when the table holds it under a key the condition selects |
| MessageRoutes.NewMessage | srcServer/routes/messages.ts:49-58 | the new item's keys untag to the channel and the timestamp, `createdAt` is that timestamp, and the only other attributes are sender and content |
| MessageRoutes.GetChannelMessages | srcServer/routes/messages.ts:12-32 | with status 200 the reply lists exactly the channel's message items in sort-key order; when the read fails it is the 500 error |
| MessageRoutes.PostChannelMessage | srcServer/routes/messages.ts:38-77 | a rejected body gets 400 with its issues and a failed put gets 500, both leaving the table unchanged; otherwise the item for the current time is put and returned with 201 |
| MessageRoutes.GetUserDms | srcServer/routes/messages.ts:83-102 | with status 200 the reply lists exactly the `DM#` items of the user's partition in sort-key order; when the read fails it is the 500 error |
| MessageRoutes.PostThenList | srcServer/routes/messages.ts:17-65 | after a message is put, listing its channel returns it |
| MessageRoutes.PostLeavesOtherChannels | srcServer/routes/messages.ts:53 | posting to one channel leaves every other channel's listing as it was |
| MessageRoutes.PostLeavesDms | srcServer/routes/messages.ts:87-94 | posting a channel message leaves every user's DM listing as it was |
| MessageRoutes.DmsAreNotChannelItems | srcServer/routes/messages.ts:87-94 | an item listed as a user's DM is never listed as any channel's message |
| MessageRoutes.SameKeyIffSameInstant | srcServer/routes/messages.ts:50-54 | two posts get the same key exactly when they go to the same channel at the same timestamp |
| MessageRoutes.SecondPutReplacesFirst | srcServer/routes/messages.ts:60-65 | of two posts to one channel at the same timestamp only the second survives |
| MessageRoutes.MessageSkOrder | srcServer/routes/messages.ts:54 | message sort keys compare as their timestamps do |
| MessageRoutes.NewMessageStamped | srcServer/routes/messages.ts:50-57 | the stored message's sort key and `createdAt` are both the timestamp of the instant it was posted |
| MessageRoutes.HistoryIsChronological | srcServer/routes/messages.ts:17-27 | a channel history in sort-key order is in the order the messages were posted, earlier first |
| MessageRoutes.Route | srcServer/routes/messages.ts:12-83 | a method and path reach a handler exactly by shape: one non-empty segment goes to the channel route for the method, `GET` with `dm` in any letter case and one non-empty segment goes to the DM route, an optional trailing empty segment is allowed, and every other request is unrouted |
| MessageRoutes.NoDmPost | srcServer/routes/messages.ts:38 | no POST with two or more real segments reaches a handler |
| ChannelRoutes.PublicOnly | srcServer/routes/channels.ts:28 | the guest filter keeps exactly the channels whose `isPrivate` is falsy, each as many times as the scan lists it |
| ChannelRoutes.PublicOnlyKeepsOrder | srcServer/routes/channels.ts:28 | the guest filter keeps the scan's order |
| ChannelRoutes.Visible | srcServer/routes/channels.ts:27-29 | a guest sees exactly the public channels, each as often as scanned, and everything else sees the whole scan, in scan order |
| ChannelRoutes.ListChannels | srcServer/routes/channels.ts:9-36 | with status 200 the reply is the visible part of exactly the channel metadata items; when the scan fails it is the 500 error |
| ChannelRoutes.NoMessageListedAsChannel | srcServer/routes/channels.ts:13-21 | every listed channel has a `CHANNEL#` and no `USER#` partition key, and no `MESSAGE#`, `PROFILE#` or `DM#` sort key, so no message, profile or DM is listed as a channel |
| ChannelRoutes.MissingFlagIsPublic | srcServer/routes/channels.ts:28 | a channel without `isPrivate` is shown to guests |
| UserRoutes.Project | srcServer/routes/users.ts:24-27 | the user list has one entry per scanned profile, in scan order, holding just its `username` attribute |
| UserRoutes.ListUsers | srcServer/routes/users.ts:8-34 | with status 200 the reply projects exactly the profile items; when the scan fails it is the 500 error |
| UserRoutes.DeleteUser | srcServer/routes/users.ts:37-57 | the user's profile key is deleted and the success message returned with status 200, or the 500 error leaves the table unchanged |
| UserRoutes.DeleteKeepsDms | srcServer/routes/users.ts:41-47 | deleting a user leaves every DM listing, the user's own included, as it was |
| UserRoutes.DeleteKeepsChannelMessages | srcServer/routes/users.ts:41-47 | deleting a user leaves every channel's messages as they were |
| UserRoutes.DeleteIdempotent | srcServer/routes/users.ts:41-52 | deleting a user twice leaves the table as deleting once |
| UserRoutes.DeletedProfileNotListed | srcServer/routes/users.ts:12-20 | after the delete, the user's profile is not among the scanned profiles |
| Auth.TokenOf | srcServer/auth/authMiddleware.ts:24 | the token never contains a space |
| Auth.Classify | srcServer/auth/authMiddleware.ts:16-38 | a request is a guest exactly when it has no user, and it has a user exactly when a bearer header's token verifies, that user being the decoded payload |
| Auth.AuthRequest.constructor | srcServer/auth/authMiddleware.ts:7-10 | a request starts with neither `user` nor `isGuest` set |
| Auth.VerifyToken | srcServer/auth/authMiddleware.ts:13-39 | the middleware always calls `next` and sets `user` and `isGuest` as the classification says |
| Auth.BearerHeaderHasToken | srcServer/auth/authMiddleware.ts:24 | a bearer header always splits into two or more pieces, so the token is the first word after the prefix |
| Auth.TokenIsWholeRest | srcServer/auth/authMiddleware.ts:24 | the token of `Bearer <word>` is the word |
| Auth.TokenIsFirstWord | srcServer/auth/authMiddleware.ts:24 | text after a further space is ignored |
| Auth.VerifiedTokenSignsIn | srcServer/auth/authMiddleware.ts:26-31 | a bearer header with a verifying token yields the decoded user and no guest flag |
| Auth.BearerIffPrefixed | srcServer/auth/authMiddleware.ts:17 | a header is a bearer header exactly when it is `Bearer ` followed by anything |
| Auth.PrefixIsStrict | srcServer/auth/authMiddleware.ts:17-21 | a lower-case `bearer`, a bare `Bearer` and a missing header all make a guest |
| ChatSort.SortIsSorted | src/pages/Messages.tsx:45-48 | the sorted messages ascend by `createdAt` time |
| ChatSort.SortPermutes | src/pages/Messages.tsx:45-48 | the sorted messages are a permutation of the fetched ones |
| ChatSort.SortIsStable | src/pages/Messages.tsx:45-48 | messages with equal times keep their fetched relative order |
| ChatSort.InsertLast | src/pages/Messages.tsx:45-48 | one insertion step moves the next element into the sorted prefix in place |
| ChatSort.SortByCreatedAt | src/pages/Messages.tsx:45-48 | sorting the array in place leaves it holding the stable sort of its old contents |
| ChatView.DmByPathOrName | src/pages/Messages.tsx:18 | a page is a DM by a `/dm/` pathname alone or by a route name starting `dm_` alone, and a page with neither is a channel page |
| ChatView.TargetName | src/pages/Messages.tsx:19-21 | the target is undefined exactly on a DM page without a route name; on a DM page it is the name without its first `dm_`, or, when that leaves nothing, without its first `/dm/` |
| ChatView.DmPathnameTarget | src/pages/Messages.tsx:18-21 | a page under `/dm/` whose name holds no `dm_` targets that name unchanged |
| ChatView.SendPath | src/pages/Messages.tsx:76-78 | for a target without `/`, the router sees the post path as `dm` and the target on a DM page and as the target alone otherwise |
| ChatView.FetchPath | src/pages/Messages.tsx:37-39 | for names without `/`, the router sees the fetch path as `dm`, the user and the target on a DM page and as the target alone otherwise |
| ChatView.DisabledIffBlocked | src/pages/Messages.tsx:104 | the input is disabled exactly when sending real input would be blocked as a guest's DM |
| ChatView.ChatTitle | src/pages/Messages.tsx:23 | the title starts with `@` exactly for a DM and `#` exactly for a channel, followed by the target as a template writes it |
| ChatView.ChannelTarget | src/pages/Messages.tsx:19-21 | a channel page targets its route name, or the empty string |
| ChatView.DmTarget | src/pages/Messages.tsx:18-20 | a page named `dm_<user>` is a DM with `<user>` |
| ChatView.BareDmPrefixTarget | src/pages/Messages.tsx:20 | a page named just `dm_` falls through the `||` and targets `dm_` |
| ChatView.DecideSend | src/pages/Messages.tsx:64-88 | a post happens exactly when the trimmed input, target and user are non-empty and a guest is not in a DM; the guest-in-DM case alone is blocked; the body is sender, receiver and trimmed content |
| ChatView.SentContentTrimmed | src/pages/Messages.tsx:66-86 | whatever is posted is non-empty, is the input with only its surrounding white space cut, and neither starts nor ends with white space |
| ChatView.DisabledNeverSends | src/pages/Messages.tsx:69-72 | while the input is disabled, sending never posts |
| ChatView.BlankInputIgnored | src/pages/Messages.tsx:66 | input of white space only is ignored |
| ChatView.ChatPage.constructor | src/pages/Messages.tsx:13-14 | the page starts with no messages and an empty input |
| ChatView.ChatPage.Type | src/pages/Messages.tsx:146 | typing replaces the input and keeps the messages |
| ChatView.ChatPage.FetchMessages | src/pages/Messages.tsx:31-58 | with a target it reads the conversation's full `/api/messages/...` endpoint, and an array answer becomes the stably sorted messages; without a target it reads nothing, and any other answer keeps the list |
| ChatView.ChatPage.HandleSend | src/pages/Messages.tsx:64-101 | an accepted post appends the returned item and clears the input; anything else changes neither |
| ChatView.ChannelPathsRouted | src/pages/Messages.tsx:37-39 | a channel page's fetch and send paths reach the channel routes |
| ChatView.DmPathsUnrouted | src/pages/Messages.tsx:37-38 | a DM page's fetch and send paths reach no route of the messages router |
| UserStore.UserStore.constructor | src/store/UserStore.ts:10-12 | the store starts signed out |
| UserStore.UserStore.SetUser | src/store/UserStore.ts:13 | setting a user replaces both name and token |
| UserStore.UserStore.Logout | src/store/UserStore.ts:14 | logging out clears both name and token |
| UserStore.SessionLifecycle | src/store/UserStore.ts:10-15 | the last `setUser` wins and logging out, once or twice, returns to the initial state |
| ChannelStore.ChannelStore.constructor | src/store/channelStore.ts:15-23 | the store starts with the four seeded channels and no selection |
| ChannelStore.ChannelStore.SetChannels | src/store/channelStore.ts:24 | replacing the list keeps the selection |
| ChannelStore.ChannelStore.SetCurrentChannel | src/store/channelStore.ts:25 | selecting a channel keeps the list |
| ChannelStore.RouteName | src/pages/Channels.tsx:53 | the selected name drops a leading `#` and keeps a name without `#` |
| ChannelStore.SeededRouteNames | src/store/channelStore.ts:16-21 | the seeded list has two public channels then two private ones, selected as their names without `#` |
| ChannelStore.SelectionNamesNoSeededChannel | src/pages/Channels.tsx:53 | a name selected from the seeded list never equals a seeded channel's display name |

## Left out

- DynamoDB paging, consistency and latency: `Query` and `Scan` return everything that matches in one answer. The server reads only the first 1 MB page. A query therefore drops a partition's newest items past 1 MB, so a channel with more than 1 MB of messages lists only its oldest ones. A scan counts its 1 MB before the filter is applied, and the table also holds every message, so the channel and user lists can miss items, or be empty, as soon as the whole table exceeds 1 MB.
- A `db.send` that fails after writing: a failed put or delete is taken to leave the table unchanged.
- The attribute types DynamoDB has beyond strings, booleans, integers and null (sets, lists, maps, binary, decimals).
- The rules of `messageSchema`: the model takes the schema's outcome as a `Parsed` or `Rejected` input.
- `jwt.verify`, signatures, expiry and `JWT_SECRET`: the model takes verification as a function from token to payload. A throwing `verify` is that function answering none.
- The clock: the current instant is a parameter.
- IsoTime.IsoOrder, IsoTime.IsoString, MessageRoutes.PostChannelMessage, MessageRoutes.NewMessageStamped: match `toISOString` only for years 0 to 9999. `toISOString` writes other years in the six-digit expanded form (`+010000-…`), which is not modelled; for such an instant the model writes the year modulo 10000 in four digits.
- `new Date(createdAt).getTime()`: a function parameter, so the model does not cover NaN comparisons for unparsable dates.
- ChatSort.SortByCreatedAt: is an insertion sort. It agrees with any stable sort that uses the same comparison, and the engine's own sort algorithm is not modelled.
- JSON encoding, `res.json`, HTTP headers and status text beyond the status code: replies are datatypes.
- Percent-encoding and decoding of path parameters.
- Express router behaviour beyond path segments: mounting, middleware order and `next` chains.
- MessageRoutes.Route: ignores routers other than the messages router, and ignores query strings.
- Mounting of `verifyToken`: no code installs it (srcServer/server.ts:28-33 mounts the routers without it), so in the running server `isGuest` is unset and every caller gets the whole channel list. The model takes `isGuest` as an input of `ListChannels` so that the guest branch can be stated.
- The `isGuest` and `hydrated` values the chat page reads from the session store: the store does not define them, so the page takes `isGuest` as a constructor input.
- React rendering, effects and their dependencies, the `loading` flag, the redirect to the home page, `alert`, `console` output, `localStorage` and the home and app shells.
- The `fetch` of a send that throws, and an answer that is not JSON: both become the `Threw` or `Refused` reply, which leaves the page unchanged.
- DM pair keys, DM posting and access checks on message routes: none exists in the code.

=== FILE: auth.dfy ===
/**
 * The `verifyToken` middleware: it reads the `Authorization` header, and
 * either records the decoded token payload as the user or marks the request
 * as a guest's. It never rejects a request: every path hands it on to the
 * next handler. Token verification (`jwt.verify` with the server's secret)
 * is a parameter: a partial function that yields a payload or nothing.
 */
module Auth {
  import opened Strings
  import opened Optional

  /** A decoded token payload; its claims are not inspected by the middleware. */
  datatype JwtPayload = JwtPayload(claims: map<string, string>)

  /** `req.user`: not yet assigned, `null`, or a decoded payload. */
  datatype UserField = Unassigned | NullUser | Decoded(payload: JwtPayload)

  /** What a middleware does with a request: hand it on, or answer it. */
  datatype Flow = CallNext | Respond(status: int)

  const BearerPrefix: string := "Bearer "

  /** `!authHeader || !authHeader.startsWith("Bearer ")`: no usable bearer header. */
  predicate NoBearer(header: Option<string>) {
    header.None? || header.value == "" || !StartsWith(header.value, BearerPrefix)
  }

  /** `authHeader.split(" ")[1] ?? ""`. */
  function TokenOf(header: string): (token: string)
    ensures ' ' !in token
  {
    var parts := Split(header, ' ');
    if |parts| >= 2 then parts[1] else ""
  }

  /** The user and guest flag the middleware leaves on a request. */
  datatype Identity = Identity(user: Option<JwtPayload>, isGuest: bool)

  /**
   * The classification: a request is a guest's exactly when it has no user,
   * and it has a user exactly when it carries a bearer header whose token
   * verifies, that user being the verified payload.
   */
  function Classify(header: Option<string>, verify: string -> Option<JwtPayload>): (id: Identity)
    ensures id.isGuest <==> id.user.None?
    ensures id.user.Some? <==> !NoBearer(header) && verify(TokenOf(header.value)).Some?
    ensures id.user.Some? ==> id.user == verify(TokenOf(header.value))
  {
    if NoBearer(header) then Identity(None, true)
    else
      match verify(TokenOf(header.value))
      case Some(payload) => Identity(Some(payload), false)
      case None => Identity(None, true)
  }

  /** The parts of an Express request the middleware reads and writes. */
  class AuthRequest {
    const authorization: Option<string>
    var user: UserField
    var isGuest: Option<bool>

    constructor (authorization: Option<string>)
      ensures this.authorization == authorization && user == Unassigned && isGuest == None
    {
      this.authorization := authorization;
      user := Unassigned;
      isGuest := None;
    }
  }

  /**
   * `verifyToken(req, res, next)`: sets `req.user` and `req.isGuest` as
   * `Classify` says and always calls `next`, never answering the request itself.
   */
  method VerifyToken(req: AuthRequest, verify: string -> Option<JwtPayload>) returns (flow: Flow)
    modifies req
    ensures flow == CallNext
    ensures req.isGuest == Some(Classify(req.authorization, verify).isGuest)
    ensures req.user == match Classify(req.authorization, verify).user
                        case Some(p) => Decoded(p)
                        case None => NullUser
  {
    var authHeader := req.authorization;
    if NoBearer(authHeader) {
      req.user := NullUser;
      req.isGuest := Some(true);
      return CallNext;
    }
    var token := TokenOf(authHeader.value);
    var decoded := verify(token);
    if decoded.Some? {
      req.user := Decoded(decoded.value);
      req.isGuest := Some(false);
      return CallNext;
    } else {
      req.user := NullUser;
      req.isGuest := Some(true);
      return CallNext;
    }
  }

  /** A bearer header splits into at least two pieces, so the `?? ""` fallback is never taken. */
  lemma BearerHeaderHasToken(rest: string)
    ensures |Split(BearerPrefix + rest, ' ')| >= 2
    ensures TokenOf(BearerPrefix + rest) == Split(rest, ' ')[0]
  {
    assert BearerPrefix + rest == "Bearer" + [' '] + rest;
    SplitCons("Bearer", ' ', rest);
  }

  /** The token of `Bearer <word>` is the word. */
  lemma TokenIsWholeRest(word: string)
    requires ' ' !in word
    ensures TokenOf(BearerPrefix + word) == word
  {
    BearerHeaderHasToken(word);
    SplitNone(word, ' ');
  }

  /** The token is what follows `Bearer ` up to the next space; the rest of the header is ignored. */
  lemma TokenIsFirstWord(word: string, tail: string)
    requires ' ' !in word
    ensures TokenOf(BearerPrefix + (word + " " + tail)) == word
  {
    BearerHeaderHasToken(word + " " + tail);
    assert word + " " + tail == word + [' '] + tail;
    SplitCons(word, ' ', tail);
  }

  /** A well-formed header whose token verifies yields a signed-in user who is not a guest. */
  lemma VerifiedTokenSignsIn(token: string, verify: string -> Option<JwtPayload>)
    requires ' ' !in token && verify(token).Some?
    ensures Classify(Some(BearerPrefix + token), verify) == Identity(verify(token), false)
  {
    TokenIsWholeRest(token);
    StartsWithBearer(token);
  }

  lemma StartsWithBearer(rest: string)
    ensures StartsWith(BearerPrefix + rest, BearerPrefix)
  {
    assert (BearerPrefix + rest)[..|BearerPrefix|] == BearerPrefix;
  }

  /** A header counts as a bearer header exactly when it is `Bearer ` followed by anything, even nothing. */
  lemma BearerIffPrefixed(h: string)
    ensures !NoBearer(Some(h)) <==> exists rest :: h == BearerPrefix + rest
  {
    if StartsWith(h, BearerPrefix) {
      assert h == BearerPrefix + h[|BearerPrefix|..];
    }
    if exists rest :: h == BearerPrefix + rest {
      var rest :| h == BearerPrefix + rest;
      StartsWithBearer(rest);
    }
  }

  /** The prefix test is case-sensitive and needs the space: `bearer x` and a bare `Bearer` are guests. */
  lemma PrefixIsStrict(x: string, verify: string -> Option<JwtPayload>)
    ensures Classify(Some("bearer " + x), verify) == Identity(None, true)
    ensures Classify(Some("Bearer"), verify) == Identity(None, true)
    ensures Classify(None, verify) == Identity(None, true)
  {
    assert ("bearer " + x)[0] == 'b';
  }
}

=== FILE: channel_routes.dfy ===
/**
 * The channels router (mounted at `/api/channels`): `GET /` scans the channel
 * metadata items and, for a guest, keeps only those not marked private.
 */
module ChannelRoutes {
  import opened Strings
  import opened Optional
  import opened Keys
  import opened Store

  datatype Reply = Channels(items: seq<Item>) | ServerError(error: string)

  /** The HTTP status code each reply is sent with. */
  function Status(r: Reply): int {
    match r
    case Channels(_) => 200
    case ServerError(_) => 500
  }

  const FetchChannelsFailed: string := "Failed to fetch channels."

  /** The scan filter of `GET /`. */
  function ChannelMetadata(): Condition {
    PrefixFilter(ChannelTag, MetaTag)
  }

  /** `!ch.isPrivate`: an item whose `isPrivate` is absent or falsy is public. */
  predicate IsPublic(x: Item) {
    !Truthy(x.Get("isPrivate"))
  }

  /** `s` occurs in `t` in order, possibly with other elements in between. */
  predicate IsSubsequence(s: seq<Item>, t: seq<Item>) {
    if s == [] then true
    else if t == [] then false
    else if s[0] == t[0] then IsSubsequence(s[1..], t[1..])
    else IsSubsequence(s, t[1..])
  }

  /** `channels.filter((ch) => !ch.isPrivate)`: the public items, each as often as in the input, and only those. */
  function PublicOnly(channels: seq<Item>): (r: seq<Item>)
    ensures forall x :: x in r <==> x in channels && IsPublic(x)
    ensures forall x :: multiset(r)[x] == if IsPublic(x) then multiset(channels)[x] else 0
    ensures |r| <= |channels|
  {
    if channels == [] then []
    else
      assert channels == [channels[0]] + channels[1..];
      if IsPublic(channels[0]) then [channels[0]] + PublicOnly(channels[1..])
      else PublicOnly(channels[1..])
  }

  /** The guest filter keeps the scan's order. */
  lemma {:induction false} PublicOnlyKeepsOrder(channels: seq<Item>)
    ensures IsSubsequence(PublicOnly(channels), channels)
  {
    if channels != [] {
      PublicOnlyKeepsOrder(channels[1..]);
      var r := PublicOnly(channels[1..]);
      assert r != [] ==> r[0] in r;
    }
  }

  /**
   * `req.isGuest ? channels.filter(...) : channels`: a guest sees only public
   * channels, each as often as the scan lists it; anyone else, including a request whose
   * guest flag was never set, sees the whole scan.
   */
  function Visible(isGuest: Option<bool>, channels: seq<Item>): (r: seq<Item>)
    ensures isGuest == Some(true) ==> forall x :: x in r <==> x in channels && IsPublic(x)
    ensures isGuest == Some(true) ==> forall x :: multiset(r)[x] == if IsPublic(x) then multiset(channels)[x] else 0
    ensures isGuest != Some(true) ==> r == channels
    ensures IsSubsequence(r, channels)
  {
    PublicOnlyKeepsOrder(channels);
    SubsequenceOfItself(channels);
    if isGuest == Some(true) then PublicOnly(channels) else channels
  }

  lemma {:induction false} SubsequenceOfItself(s: seq<Item>)
    ensures IsSubsequence(s, s)
  {
    if s != [] { SubsequenceOfItself(s[1..]); }
  }

  /** `GET /`: the metadata scan, then the guest filter. */
  method ListChannels(db: Table, isGuest: Option<bool>, fault: bool) returns (reply: Reply, ghost scanned: seq<Item>)
    requires db.Valid()
    ensures Status(reply) == if fault then 500 else 200
    ensures fault ==> reply == ServerError(FetchChannelsFailed)
    ensures !fault ==> Lists(scanned, db.items, ChannelMetadata()) && reply == Channels(Visible(isGuest, scanned))
  {
    if fault {
      return ServerError(FetchChannelsFailed), [];
    }
    var channels := db.Scan(ChannelTag, MetaTag);
    scanned := channels;
    reply := Channels(Visible(isGuest, channels));
  }

  /** Nothing the channel scan lists is a message, a profile or a direct message. */
  lemma NoMessageListedAsChannel(m: map<Key, Item>, r: seq<Item>, x: Item)
    requires Lists(r, m, ChannelMetadata()) && x in r
    ensures StartsWith(x.pk, ChannelTag) && !StartsWith(x.pk, UserTag)
    ensures !StartsWith(x.sk, MessageTag) && !StartsWith(x.sk, ProfileTag) && !StartsWith(x.sk, DmTag)
  {
    SortTagsDisjoint(x.sk);
    ChannelUserDisjoint(x.pk);
  }

  /** An item without an `isPrivate` attribute is shown to guests. */
  lemma MissingFlagIsPublic(channels: seq<Item>, x: Item)
    requires x in channels && "isPrivate" !in x.attrs
    ensures x in Visible(Some(true), channels)
  {
  }
}

=== FILE: channel_store.dfy ===
/**
 * The channel store (`useChannelStore`): the seeded channel list shown by the
 * channels page and the currently selected channel. Each action is a zustand
 * `set` that overwrites one field and keeps the other.
 */
module ChannelStore {
  import opened Optional
  import opened Strings

  datatype Channel = Channel(name: string, isPrivate: bool)

  /** The list the store starts with. */
  const SeededChannels: seq<Channel> := [
    Channel("#Coders group", false),
    Channel("#Funny group", false),
    Channel("#group1", true),
    Channel("#group2", true)
  ]

  class ChannelStore {
    var channels: seq<Channel>
    var currentChannel: Option<string>

    constructor ()
      ensures channels == SeededChannels && currentChannel == None
    {
      channels := SeededChannels;
      currentChannel := None;
    }

    /** `setChannels(channels)`: replaces the list, keeps the selection. */
    method SetChannels(cs: seq<Channel>)
      modifies this
      ensures channels == cs && currentChannel == old(currentChannel)
    {
      channels := cs;
    }

    /** `setCurrentChannel(name)`: replaces the selection, keeps the list, checks nothing. */
    method SetCurrentChannel(name: string)
      modifies this
      ensures currentChannel == Some(name) && channels == old(channels)
    {
      currentChannel := Some(name);
    }
  }

  /**
   * The name the channels page selects and navigates to: the display name with
   * its first `#` removed, so a leading `#` is dropped and a name without one is kept.
   */
  function RouteName(c: Channel): (n: string)
    ensures StartsWith(c.name, "#") ==> n == c.name[1..]
    ensures '#' !in c.name ==> n == c.name
  {
    FirstHashDropped(c.name);
    ReplaceFirst(c.name, "#", "")
  }

  lemma FirstHashDropped(s: string)
    ensures StartsWith(s, "#") ==> ReplaceFirst(s, "#", "") == s[1..]
    ensures '#' !in s ==> ReplaceFirst(s, "#", "") == s
  {
    if StartsWith(s, "#") {
      ReplaceLeadingPrefix(s, "#");
    }
    if '#' !in s {
      CharAbsent(s, '#');
      ReplaceAbsent(s, "#", "");
    }
  }

  /**
   * The seeded list: two public channels, then two private ones, and the names
   * the page selects for them are the display names without the `#`.
   */
  lemma SeededRouteNames()
    ensures |SeededChannels| == 4
    ensures forall i :: 0 <= i < 4 ==> (SeededChannels[i].isPrivate <==> i >= 2)
    ensures RouteName(SeededChannels[0]) == "Coders group" && RouteName(SeededChannels[1]) == "Funny group"
    ensures RouteName(SeededChannels[2]) == "group1" && RouteName(SeededChannels[3]) == "group2"
  {
    forall i | 0 <= i < 4 ensures StartsWith(SeededChannels[i].name, "#") {
      assert SeededChannels[i].name[..1] == "#";
    }
  }

  /** So a selection made from the seeded list never equals the name of any seeded channel. */
  lemma SelectionNamesNoSeededChannel(i: nat, j: nat)
    requires i < 4 && j < 4
    ensures RouteName(SeededChannels[i]) != SeededChannels[j].name
  {
    var name := SeededChannels[i].name;
    assert StartsWith(name, "#") by {
      assert name[..1] == "#";
    }
    assert |name| >= 2 && name[1] != '#';
    assert RouteName(SeededChannels[i])[0] == name[1];
    assert SeededChannels[j].name[0] == '#';
  }
}

=== FILE: chat_sort.dfy ===
/**
 * The ordering `fetchMessages` applies to fetched messages: `data.sort((a, b) =>
 * getTime(a.createdAt) - getTime(b.createdAt))`, an in-place stable sort
 * (stability is guaranteed by ECMAScript's `Array.prototype.sort`). Parsing
 * `createdAt` into milliseconds (`new Date(...).getTime()`) is a parameter.
 */
module ChatSort {
  /** A message as the chat page holds it. */
  datatype Message = Message(sender: string, content: string, createdAt: string)

  /** Ascending by parsed `createdAt`. */
  ghost predicate SortedByTime(s: seq<Message>, time: string -> int) {
    forall i, j :: 0 <= i < j < |s| ==> time(s[i].createdAt) <= time(s[j].createdAt)
  }

  /** Places `x` after the last element of `s`, scanning from the right, whose time is not later than `x`'s. */
  function Insert(s: seq<Message>, x: Message, time: string -> int): (r: seq<Message>)
    ensures |r| == |s| + 1
  {
    if s == [] then [x]
    else if time(s[|s| - 1].createdAt) <= time(x.createdAt) then s + [x]
    else Insert(s[..|s| - 1], x, time) + [s[|s| - 1]]
  }

  /** Insertion sort from left to right, the specification of the in-place sort. */
  function StableSort(s: seq<Message>, time: string -> int): (r: seq<Message>)
    ensures |r| == |s|
  {
    if s == [] then [] else Insert(StableSort(s[..|s| - 1], time), s[|s| - 1], time)
  }

  /** The elements of `s` whose time is `t`, in their order in `s`. */
  function AtTime(s: seq<Message>, time: string -> int, t: int): seq<Message> {
    if s == [] then []
    else AtTime(s[..|s| - 1], time, t) + (if time(s[|s| - 1].createdAt) == t then [s[|s| - 1]] else [])
  }

  lemma AtTimeAppend(s: seq<Message>, y: Message, time: string -> int, t: int)
    ensures AtTime(s + [y], time, t) == AtTime(s, time, t) + (if time(y.createdAt) == t then [y] else [])
  {
    assert (s + [y])[..|s|] == s;
  }

  lemma {:induction false} InsertPermutes(s: seq<Message>, x: Message, time: string -> int)
    ensures multiset(Insert(s, x, time)) == multiset(s) + multiset{x}
  {
    if s != [] && time(s[|s| - 1].createdAt) > time(x.createdAt) {
      InsertPermutes(s[..|s| - 1], x, time);
      assert s == s[..|s| - 1] + [s[|s| - 1]];
    }
  }

  lemma {:induction false} InsertSorted(s: seq<Message>, x: Message, time: string -> int)
    requires SortedByTime(s, time)
    ensures SortedByTime(Insert(s, x, time), time)
    ensures Insert(s, x, time)[|s|] == x || time(Insert(s, x, time)[|s|].createdAt) > time(x.createdAt)
  {
    if s != [] && time(s[|s| - 1].createdAt) > time(x.createdAt) {
      var p := s[..|s| - 1];
      InsertSorted(p, x, time);
      var q := Insert(p, x, time);
      InsertPermutes(p, x, time);
      forall i | 0 <= i < |q|
        ensures time(q[i].createdAt) <= time(s[|s| - 1].createdAt)
      {
        assert q[i] in multiset(q);
        assert q[i] == x || q[i] in multiset(p);
      }
    }
  }

  /** The sorted result is in ascending time order. */
  lemma {:induction false} SortIsSorted(s: seq<Message>, time: string -> int)
    ensures SortedByTime(StableSort(s, time), time)
  {
    if s != [] {
      SortIsSorted(s[..|s| - 1], time);
      InsertSorted(StableSort(s[..|s| - 1], time), s[|s| - 1], time);
    }
  }

  /** The sorted result holds exactly the fetched messages, as many times each. */
  lemma {:induction false} SortPermutes(s: seq<Message>, time: string -> int)
    ensures multiset(StableSort(s, time)) == multiset(s)
  {
    if s != [] {
      SortPermutes(s[..|s| - 1], time);
      InsertPermutes(StableSort(s[..|s| - 1], time), s[|s| - 1], time);
      assert s == s[..|s| - 1] + [s[|s| - 1]];
    }
  }

  lemma {:induction false} InsertStable(s: seq<Message>, x: Message, time: string -> int, t: int)
    requires SortedByTime(s, time)
    ensures AtTime(Insert(s, x, time), time, t) == AtTime(s, time, t) + (if time(x.createdAt) == t then [x] else [])
  {
    if s == [] {
    } else if time(s[|s| - 1].createdAt) <= time(x.createdAt) {
      AtTimeAppend(s, x, time, t);
    } else {
      var p, y := s[..|s| - 1], s[|s| - 1];
      assert s == p + [y];
      assert SortedByTime(p, time) by {
        forall i, j | 0 <= i < j < |p| ensures time(p[i].createdAt) <= time(p[j].createdAt) {
          assert p[i] == s[i] && p[j] == s[j];
        }
      }
      InsertStable(p, x, time, t);
      assert Insert(s, x, time) == Insert(p, x, time) + [y];
      AtTimeAppend(Insert(p, x, time), y, time, t);
      AtTimeAppend(p, y, time, t);
      var xs: seq<Message> := if time(x.createdAt) == t then [x] else [];
      var ys: seq<Message> := if time(y.createdAt) == t then [y] else [];
      assert xs == [] || ys == [];
      assert AtTime(Insert(s, x, time), time, t) == AtTime(p, time, t) + xs + ys;
      assert AtTime(s, time, t) + xs == AtTime(p, time, t) + ys + xs;
    }
  }

  /** Stability: messages with equal times keep their fetched order. */
  lemma {:induction false} SortIsStable(s: seq<Message>, time: string -> int, t: int)
    ensures AtTime(StableSort(s, time), time, t) == AtTime(s, time, t)
  {
    if s != [] {
      var p, y := s[..|s| - 1], s[|s| - 1];
      SortIsStable(p, time, t);
      SortIsSorted(p, time);
      InsertStable(StableSort(p, time), y, time, t);
    }
  }

  /** One step of the inner loop: moving `x` left past a later element. */
  lemma InsertShift(s: seq<Message>, x: Message, time: string -> int, j: nat)
    requires 0 < j <= |s| && time(s[j - 1].createdAt) > time(x.createdAt)
    ensures Insert(s[..j], x, time) + s[j..] == Insert(s[..j - 1], x, time) + s[j - 1..]
  {
    assert s[..j][..j - 1] == s[..j - 1];
    assert [s[j - 1]] + s[j..] == s[j - 1..];
  }

  /** Swapping `x` with its left neighbour moves it one place left. */
  lemma SwapLeft(b: seq<Message>, sorted: seq<Message>, x: Message, rest: seq<Message>, j: nat)
    requires 0 < j <= |sorted| && b == sorted[..j] + [x] + sorted[j..] + rest
    ensures b[j - 1 := x][j := sorted[j - 1]] == sorted[..j - 1] + [x] + sorted[j - 1..] + rest
  {
    var b' := b[j - 1 := x][j := sorted[j - 1]];
    var c := sorted[..j - 1] + [x] + sorted[j - 1..] + rest;
    assert |b'| == |c|;
    forall k | 0 <= k < |c| ensures b'[k] == c[k] {
      if k < j - 1 {
      } else if k == j - 1 {
      } else if k == j {
      } else {
        assert b[k] == c[k];
      }
    }
  }

  /** The inner loop: moves `a[i]` left into the sorted prefix `a[..i]`. */
  method InsertLast(a: array<Message>, i: nat, time: string -> int)
    requires i < a.Length
    modifies a
    ensures a[..i + 1] == Insert(old(a[..i]), old(a[i]), time)
    ensures a[i + 1..] == old(a[i + 1..])
  {
    ghost var sorted := a[..i];
    ghost var rest := a[i + 1..];
    var x := a[i];
    var j := i;
    assert sorted[..j] == sorted && sorted[j..] == [];
    assert a[..] == sorted[..j] + [x] + sorted[j..] + rest;
    while j > 0 && time(a[j - 1].createdAt) > time(x.createdAt)
      invariant 0 <= j <= i
      invariant a[..] == sorted[..j] + [x] + sorted[j..] + rest
      invariant Insert(sorted, x, time) == Insert(sorted[..j], x, time) + sorted[j..]
    {
      assert a[j - 1] == sorted[j - 1] && a[j] == x;
      InsertShift(sorted, x, time, j);
      SwapLeft(a[..], sorted, x, rest, j);
      a[j - 1], a[j] := a[j], a[j - 1];
      j := j - 1;
    }
    assert a[..i + 1] == sorted[..j] + [x] + sorted[j..];
    assert a[i + 1..] == rest;
  }

  /** The in-place insertion sort; it leaves `a` holding `StableSort` of what it held. */
  method SortByCreatedAt(a: array<Message>, time: string -> int)
    modifies a
    ensures a[..] == StableSort(old(a[..]), time)
  {
    ghost var input := a[..];
    var i := 0;
    while i < a.Length
      invariant 0 <= i <= a.Length
      invariant a[..i] == StableSort(input[..i], time)
      invariant a[i..] == input[i..]
    {
      assert a[i] == input[i];
      InsertLast(a, i, time);
      assert input[..i + 1][..i] == input[..i];
      i := i + 1;
    }
    assert input[..a.Length] == input;
  }
}

=== FILE: chat_view.dfy ===
/**
 * The chat page (`Messages`): what it derives from the route (DM or channel,
 * the conversation's target, the title), when its input is disabled, what it
 * fetches and how it orders the result, and what sending does.
 */
module ChatView {
  import opened Strings
  import opened Optional
  import opened ChatSort
  import MessageRoutes

  /** `location.pathname.startsWith("/dm/") || name?.startsWith("dm_")`, by truthiness. */
  predicate IsDM(pathname: string, name: Option<string>) {
    StartsWith(pathname, "/dm/") || (name.Some? && StartsWith(name.value, "dm_"))
  }

  /**
   * `isDM ? name?.replace("dm_", "") || name?.replace("/dm/", "") : name ?? ""`,
   * none standing for `undefined`.
   */
  function TargetName(pathname: string, name: Option<string>): (r: Option<string>)
    ensures r.None? <==> IsDM(pathname, name) && name.None?
    ensures IsDM(pathname, name) && name.Some? ==>
      r == Some(if ReplaceFirst(name.value, "dm_", "") != "" then ReplaceFirst(name.value, "dm_", "")
                else ReplaceFirst(name.value, "/dm/", ""))
  {
    if IsDM(pathname, name) then
      match name
      case None => None
      case Some(n) =>
        var dropped := ReplaceFirst(n, "dm_", "");
        if dropped != "" then Some(dropped) else Some(ReplaceFirst(n, "/dm/", ""))
    else
      Some(match name case Some(n) => n case None => "")
  }

  /** How a template literal writes a possibly undefined string. */
  function UndefinedText(s: Option<string>): string {
    match s case Some(v) => v case None => "undefined"
  }

  /** How a template literal writes a possibly null string. */
  function NullText(s: Option<string>): string {
    match s case Some(v) => v case None => "null"
  }

  /** `` isDM ? `@${targetName}` : `#${targetName}` ``: the sigil tells the chat kind, the rest is the target. */
  function ChatTitle(pathname: string, name: Option<string>): (title: string)
    ensures |title| >= 1 && (title[0] == '@' <==> IsDM(pathname, name)) && (title[0] == '#' <==> !IsDM(pathname, name))
    ensures title[1..] == UndefinedText(TargetName(pathname, name))
  {
    (if IsDM(pathname, name) then "@" else "#") + UndefinedText(TargetName(pathname, name))
  }

  /** A page is a DM page by its pathname alone, or by a route name starting with `dm_` alone. */
  lemma DmByPathOrName(rest: string, pathname: string, name: Option<string>)
    ensures IsDM("/dm/" + rest, name)
    ensures IsDM(pathname, Some("dm_" + rest))
    ensures !StartsWith(pathname, "/dm/") && !(name.Some? && StartsWith(name.value, "dm_")) ==> !IsDM(pathname, name)
  {
    assert ("/dm/" + rest)[..4] == "/dm/";
    assert ("dm_" + rest)[..3] == "dm_";
  }

  /** A page reached through `/dm/...` whose name holds no `dm_` targets its name unchanged. */
  lemma DmPathnameTarget(rest: string, n: string)
    requires n != "" && forall i :: 0 <= i <= |n| ==> !StartsWith(n[i..], "dm_")
    ensures IsDM("/dm/" + rest, Some(n))
    ensures TargetName("/dm/" + rest, Some(n)) == Some(n)
  {
    DmByPathOrName(rest, "", Some(n));
    ReplaceAbsent(n, "dm_", "");
  }

  /** A channel page targets the route's name, or the empty string when there is none. */
  lemma ChannelTarget(pathname: string, name: Option<string>)
    requires !IsDM(pathname, name)
    ensures TargetName(pathname, name) == Some(if name.Some? then name.value else "")
  {
  }

  /** A DM page named `dm_<user>` targets `<user>`. */
  lemma DmTarget(pathname: string, user: string)
    requires user != ""
    ensures IsDM(pathname, Some("dm_" + user))
    ensures TargetName(pathname, Some("dm_" + user)) == Some(user)
  {
    var n := "dm_" + user;
    assert n[..3] == "dm_";
    ReplaceLeadingPrefix(n, "dm_");
    assert n[3..] == user;
  }

  /** A DM page named just `dm_` falls through to the second replace and targets `dm_` itself. */
  lemma BareDmPrefixTarget(pathname: string)
    ensures TargetName(pathname, Some("dm_")) == Some("dm_")
  {
    ReplaceLeadingPrefix("dm_", "dm_");
    assert "dm_"[3..] == "";
    assert forall i :: 0 <= i <= 3 ==> !StartsWith("dm_"[i..], "/dm/");
    ReplaceAbsent("dm_", "/dm/", "");
  }

  /** `isDM && isGuest`. */
  predicate InputDisabled(isDM: bool, isGuest: bool) {
    isDM && isGuest
  }

  /** The body `handleSend` posts. */
  datatype SendBody = SendBody(sender: string, receiver: string, content: string)

  datatype PostRequest = PostRequest(endpoint: string, body: SendBody)

  /** What `handleSend` does before any answer arrives. */
  datatype SendDecision = Ignored | GuestBlocked | Send(request: PostRequest)

  const MessagesApi: string := "/api/messages"

  /**
   * The path below `/api/messages` that `handleSend` posts to. For a target
   * without `/`, the router sees `dm` and the target, or the target alone.
   */
  function SendPath(isDM: bool, target: string): (p: string)
    ensures '/' !in target ==> MessageRoutes.Segments(p) == if isDM then ["dm", target] else [target]
  {
    ChannelSegments(target);
    DmSendSegments(target);
    if isDM then "/dm/" + target else "/" + target
  }

  /**
   * The path below `/api/messages` that `fetchMessages` reads. For names
   * without `/`, the router sees `dm`, the user and the target, or the target alone.
   */
  function FetchPath(isDM: bool, username: Option<string>, target: string): (p: string)
    ensures '/' !in target && '/' !in NullText(username) ==>
      MessageRoutes.Segments(p) == if isDM then ["dm", NullText(username), target] else [target]
  {
    ChannelSegments(target);
    DmFetchSegments(NullText(username), target);
    if isDM then "/dm/" + NullText(username) + "/" + target else "/" + target
  }

  /**
   * `handleSend` up to the request: it sends only when the trimmed input, the
   * target and the user name are all non-empty and the user is not a guest in a
   * DM (the guest case is the one that raises an alert), and then posts the
   * user as sender, the target as receiver and the trimmed input as content.
   */
  function DecideSend(input: string, target: Option<string>, username: Option<string>, isGuest: bool, isDM: bool): (d: SendDecision)
    ensures d.Send? <==>
      Trim(input) != "" && target.Some? && target.value != "" && username.Some? && username.value != "" && !(isGuest && isDM)
    ensures d.GuestBlocked? <==>
      Trim(input) != "" && target.Some? && target.value != "" && username.Some? && username.value != "" && isGuest && isDM
    ensures d.Send? ==> d.request == PostRequest(MessagesApi + SendPath(isDM, target.value), SendBody(username.value, target.value, Trim(input)))
  {
    if Trim(input) == "" || target.None? || target.value == "" || username.None? || username.value == "" then Ignored
    else if isGuest && isDM then GuestBlocked
    else Send(PostRequest(MessagesApi + SendPath(isDM, target.value), SendBody(username.value, target.value, Trim(input))))
  }

  /**
   * What is posted is the input with its surrounding spaces cut (`Trim` says
   * which slice of the input that is): it is non-empty and neither starts nor
   * ends with a space.
   */
  lemma SentContentTrimmed(input: string, target: Option<string>, username: Option<string>, isGuest: bool, isDM: bool)
    requires DecideSend(input, target, username, isGuest, isDM).Send?
    ensures var c := DecideSend(input, target, username, isGuest, isDM).request.body.content;
      c == Trim(input) && c != [] && !IsJsSpace(c[0]) && !IsJsSpace(c[|c| - 1])
  {
    var c := DecideSend(input, target, username, isGuest, isDM).request.body.content;
    SentContentIsTrim(input, target, username, isGuest, isDM);
    assert c == Trim(input) != [];
    assert !IsJsSpace(c[0]);
  }

  /** A send posts the trimmed input, which is then non-empty. */
  lemma SentContentIsTrim(input: string, target: Option<string>, username: Option<string>, isGuest: bool, isDM: bool)
    requires DecideSend(input, target, username, isGuest, isDM).Send?
    ensures DecideSend(input, target, username, isGuest, isDM).request.body.content == Trim(input) != []
  {
  }

  /** The input is disabled exactly when a send of real input would be blocked as a guest's DM. */
  lemma DisabledIffBlocked(input: string, target: string, username: string, isGuest: bool, isDM: bool)
    requires !AllSpace(input) && target != "" && username != ""
    ensures InputDisabled(isDM, isGuest) <==> DecideSend(input, Some(target), Some(username), isGuest, isDM).GuestBlocked?
  {
    TrimEmptyIff(input);
  }

  /** Whenever the input is disabled, sending cannot post anything. */
  lemma DisabledNeverSends(input: string, target: Option<string>, username: Option<string>, isGuest: bool, isDM: bool)
    requires InputDisabled(isDM, isGuest)
    ensures !DecideSend(input, target, username, isGuest, isDM).Send?
  {
  }

  /** Input of spaces only is never sent. */
  lemma BlankInputIgnored(input: string, target: Option<string>, username: Option<string>, isGuest: bool, isDM: bool)
    requires AllSpace(input)
    ensures DecideSend(input, target, username, isGuest, isDM) == Ignored
  {
    TrimEmptyIff(input);
  }

  /** The server's answer to the post: ok with the stored item, not ok, or a thrown fetch or JSON error. */
  datatype SendReply = Accepted(item: Message) | Refused | Threw

  /** The server's answer to the fetch: a JSON array, some other JSON value, or a thrown error. */
  datatype FetchReply = JsonArray(data: seq<Message>) | NotArray | Failed

  /** The page's state, with the route and session values it reads as constants. */
  class ChatPage {
    const pathname: string
    const name: Option<string>
    const username: Option<string>
    const isGuest: bool
    var messages: seq<Message>
    var newMessage: string

    constructor (pathname: string, name: Option<string>, username: Option<string>, isGuest: bool)
      ensures this.pathname == pathname && this.name == name && this.username == username && this.isGuest == isGuest
      ensures messages == [] && newMessage == ""
    {
      this.pathname := pathname;
      this.name := name;
      this.username := username;
      this.isGuest := isGuest;
      messages := [];
      newMessage := "";
    }

    /** The input's `onChange`. */
    method Type(text: string)
      modifies this
      ensures newMessage == text && messages == old(messages)
    {
      newMessage := text;
    }

    /**
     * `fetchMessages`: with a target, it reads the conversation; a JSON array
     * answer is sorted in place by `createdAt` and becomes the message list,
     * any other answer leaves the list as it was.
     */
    method FetchMessages(reply: FetchReply, time: string -> int) returns (path: Option<string>)
      modifies this
      ensures var target := TargetName(pathname, name);
        path == if target.None? || target.value == "" then None
                else Some(MessagesApi + FetchPath(IsDM(pathname, name), username, target.value))
      ensures messages == if path.Some? && reply.JsonArray? then StableSort(reply.data, time) else old(messages)
      ensures newMessage == old(newMessage)
    {
      var target := TargetName(pathname, name);
      if target.None? || target.value == "" {
        return None;
      }
      path := Some(MessagesApi + FetchPath(IsDM(pathname, name), username, target.value));
      if reply.JsonArray? {
        var data := new Message[|reply.data|](i requires 0 <= i < |reply.data| => reply.data[i]);
        assert data[..] == reply.data;
        SortByCreatedAt(data, time);
        messages := data[..];
      }
    }

    /**
     * `handleSend`: decides as `DecideSend` says; after a post answered ok it
     * appends the returned item and clears the input, and otherwise it changes
     * neither.
     */
    method HandleSend(reply: SendReply) returns (decision: SendDecision)
      modifies this
      ensures decision == DecideSend(old(newMessage), TargetName(pathname, name), username, isGuest, IsDM(pathname, name))
      ensures decision.Send? && reply.Accepted? ==> messages == old(messages) + [reply.item] && newMessage == ""
      ensures !(decision.Send? && reply.Accepted?) ==> messages == old(messages) && newMessage == old(newMessage)
    {
      var isDM := IsDM(pathname, name);
      var target := TargetName(pathname, name);
      decision := DecideSend(newMessage, target, username, isGuest, isDM);
      if !decision.Send? {
        return;
      }
      if reply.Accepted? {
        messages := messages + [reply.item];
        newMessage := "";
      }
    }
  }

  /** The segments of a channel path are the channel alone. */
  lemma ChannelSegments(target: string)
    ensures '/' !in target ==> MessageRoutes.Segments("/" + target) == [target]
  {
    if '/' !in target {
      assert ("/" + target)[..1] == "/";
      assert ("/" + target)[1..] == target;
      SplitNone(target, '/');
    }
  }

  /** The segments of a DM fetch path are `dm`, the user and the target. */
  lemma DmFetchSegments(u: string, target: string)
    ensures '/' !in u && '/' !in target ==> MessageRoutes.Segments("/dm/" + u + "/" + target) == ["dm", u, target]
  {
    if '/' !in u && '/' !in target {
      var path := "/dm/" + u + "/" + target;
      var tail := u + ['/'] + target;
      assert path[..1] == "/";
      assert path[1..] == "dm" + ['/'] + tail;
      SplitCons(u, '/', target);
      SplitNone(target, '/');
      assert Split(tail, '/') == [u, target];
      SplitCons("dm", '/', tail);
      assert Split(path[1..], '/') == ["dm"] + [u, target];
    }
  }

  /** The segments of a DM send path are `dm` and the target. */
  lemma DmSendSegments(target: string)
    ensures '/' !in target ==> MessageRoutes.Segments("/dm/" + target) == ["dm", target]
  {
    if '/' !in target {
      var path := "/dm/" + target;
      assert path[..1] == "/";
      assert path[1..] == "dm" + ['/'] + target;
      SplitNone(target, '/');
      SplitCons("dm", '/', target);
    }
  }

  /** A channel page reads and posts through the channel routes. */
  lemma ChannelPathsRouted(username: Option<string>, channel: string)
    requires channel != "" && '/' !in channel
    ensures MessageRoutes.Route(MessageRoutes.Get, MessageRoutes.Segments(FetchPath(false, username, channel)))
            == MessageRoutes.ListChannelMessages(channel)
    ensures MessageRoutes.Route(MessageRoutes.Post, MessageRoutes.Segments(SendPath(false, channel)))
            == MessageRoutes.AddChannelMessage(channel)
  {
  }

  /**
   * A DM page reads `/dm/<user>/<target>` and posts to `/dm/<target>`; the
   * messages router has a route for neither, so both requests end unrouted.
   */
  lemma DmPathsUnrouted(username: Option<string>, target: string)
    requires target != "" && '/' !in target && '/' !in NullText(username)
    ensures MessageRoutes.Route(MessageRoutes.Get, MessageRoutes.Segments(FetchPath(true, username, target)))
            == MessageRoutes.NoRoute
    ensures MessageRoutes.Route(MessageRoutes.Post, MessageRoutes.Segments(SendPath(true, target)))
            == MessageRoutes.NoRoute
  {
  }
}

=== FILE: iso_time.dfy ===
/**
 * The server's clock reading, `new Date().toISOString()`: a UTC instant written
 * in the fixed-width form `YYYY-MM-DDTHH:mm:ss.sssZ` of section 5.6 of RFC 3339.
 * Section 5.1 of RFC 3339 notes that such strings sort chronologically; the
 * lemmas here prove it for this format.
 */
module IsoTime {
  import opened Strings

  /** A UTC instant as its calendar fields. */
  datatype Instant = Instant(year: nat, month: nat, day: nat, hour: nat, minute: nat, second: nat, millis: nat)
  {
    /** The instants `toISOString` writes with a four-digit year. */
    predicate Valid() {
      && year <= 9999
      && 1 <= month <= 12
      && 1 <= day <= DaysInMonth(year, month)
      && hour < 24 && minute < 60 && second < 60 && millis < 1000
    }
  }

  predicate IsLeapYear(y: nat) {
    y % 4 == 0 && (y % 100 != 0 || y % 400 == 0)
  }

  function DaysInMonth(y: nat, m: nat): nat {
    if m == 2 then (if IsLeapYear(y) then 29 else 28)
    else if m == 4 || m == 6 || m == 9 || m == 11 then 30
    else 31
  }

  /** Chronological order: `a` is strictly earlier than `b`. */
  predicate Before(a: Instant, b: Instant) {
    || a.year < b.year
    || (a.year == b.year && a.month < b.month)
    || (a.year == b.year && a.month == b.month && a.day < b.day)
    || (a.year == b.year && a.month == b.month && a.day == b.day && a.hour < b.hour)
    || (a.year == b.year && a.month == b.month && a.day == b.day && a.hour == b.hour && a.minute < b.minute)
    || (a.year == b.year && a.month == b.month && a.day == b.day && a.hour == b.hour && a.minute == b.minute
        && a.second < b.second)
    || (a.year == b.year && a.month == b.month && a.day == b.day && a.hour == b.hour && a.minute == b.minute
        && a.second == b.second && a.millis < b.millis)
  }

  function Pow10(w: nat): (p: nat)
    ensures p >= 1
  {
    if w == 0 then 1 else 10 * Pow10(w - 1)
  }

  function DigitChar(d: nat): char
    requires d < 10
  {
    (48 + d) as char
  }

  /** `n` written in decimal with exactly `w` digits, zero-padded on the left. */
  function Digits(n: nat, w: nat): (s: string)
    ensures |s| == w
  {
    if w == 0 then [] else Digits(n / 10, w - 1) + [DigitChar(n % 10)]
  }

  /** A zero-padded field of width `w` followed by a separator and the rest of the string. */
  function Field(n: nat, w: nat, sep: char, rest: string): string {
    Digits(n, w) + [sep] + rest
  }

  /** `toISOString()` for a valid instant; other years are written with four digits only, not in the expanded form. */
  function IsoString(t: Instant): string {
    Field(t.year, 4, '-', Field(t.month, 2, '-', Field(t.day, 2, 'T',
      Field(t.hour, 2, ':', Field(t.minute, 2, ':', Field(t.second, 2, '.',
        Digits(t.millis, 3) + "Z"))))))
  }

  /** Fixed-width decimal strings compare like the numbers they write. */
  lemma {:induction false} DigitsOrder(n: nat, m: nat, w: nat)
    requires n < Pow10(w) && m < Pow10(w)
    ensures Less(Digits(n, w), Digits(m, w)) <==> n < m
    ensures Digits(n, w) == Digits(m, w) <==> n == m
  {
    if w > 0 {
      DigitsOrder(n / 10, m / 10, w - 1);
      var x, x' := Digits(n / 10, w - 1), Digits(m / 10, w - 1);
      var c, c' := DigitChar(n % 10), DigitChar(m % 10);
      LessConcat(x, [c], x', [c']);
      assert Less([c], [c']) <==> c < c' by { assert [c][1..] == [] && [c'][1..] == []; }
      assert c == c' <==> n % 10 == m % 10;
      assert n == 10 * (n / 10) + n % 10 && m == 10 * (m / 10) + m % 10;
      if Digits(n, w) == Digits(m, w) {
        assert Digits(n, w)[..w - 1] == x && Digits(m, w)[..w - 1] == x';
        assert Digits(n, w)[w - 1] == c && Digits(m, w)[w - 1] == c';
      }
    }
  }

  /** Comparing two strings that begin with a field of the same width. */
  lemma FieldOrder(n: nat, m: nat, w: nat, sep: char, rest: string, rest': string)
    requires n < Pow10(w) && m < Pow10(w)
    ensures Less(Field(n, w, sep, rest), Field(m, w, sep, rest')) <==> n < m || (n == m && Less(rest, rest'))
    ensures Field(n, w, sep, rest) == Field(m, w, sep, rest') <==> n == m && rest == rest'
  {
    DigitsOrder(n, m, w);
    var x, x' := Digits(n, w) + [sep], Digits(m, w) + [sep];
    LessConcat(x, rest, x', rest');
    LessConcat(Digits(n, w), [sep], Digits(m, w), [sep]);
    LessIrreflexive([sep]);
    if x == x' { assert x[..w] == Digits(n, w) && x'[..w] == Digits(m, w); }
    var f, f' := Field(n, w, sep, rest), Field(m, w, sep, rest');
    if f == f' {
      assert f[..w] == Digits(n, w) && f'[..w] == Digits(m, w);
      assert f[w + 1..] == rest && f'[w + 1..] == rest';
    }
  }

  /** Every valid instant is written with exactly 24 characters. */
  lemma IsoStringLength(t: Instant)
    requires t.Valid()
    ensures |IsoString(t)| == 24
  {
  }

  lemma PowersUsed()
    ensures Pow10(2) == 100 && Pow10(3) == 1000 && Pow10(4) == 10000
  {
  }

  /**
   * The ISO strings of two valid instants compare lexicographically exactly as
   * the instants compare in time, and they are equal exactly when the
   * instants are.
   */
  lemma IsoOrder(a: Instant, b: Instant)
    requires a.Valid() && b.Valid()
    ensures Less(IsoString(a), IsoString(b)) <==> Before(a, b)
    ensures IsoString(a) == IsoString(b) <==> a == b
  {
    PowersUsed();
    var ms, ms' := Digits(a.millis, 3) + "Z", Digits(b.millis, 3) + "Z";
    DigitsOrder(a.millis, b.millis, 3);
    LessConcat(Digits(a.millis, 3), "Z", Digits(b.millis, 3), "Z");
    LessIrreflexive("Z");
    if ms == ms' { assert ms[..3] == Digits(a.millis, 3) && ms'[..3] == Digits(b.millis, 3); }
    var s, s' := Field(a.second, 2, '.', ms), Field(b.second, 2, '.', ms');
    FieldOrder(a.second, b.second, 2, '.', ms, ms');
    var mi, mi' := Field(a.minute, 2, ':', s), Field(b.minute, 2, ':', s');
    FieldOrder(a.minute, b.minute, 2, ':', s, s');
    var h, h' := Field(a.hour, 2, ':', mi), Field(b.hour, 2, ':', mi');
    FieldOrder(a.hour, b.hour, 2, ':', mi, mi');
    var d, d' := Field(a.day, 2, 'T', h), Field(b.day, 2, 'T', h');
    FieldOrder(a.day, b.day, 2, 'T', h, h');
    var mo, mo' := Field(a.month, 2, '-', d), Field(b.month, 2, '-', d');
    FieldOrder(a.month, b.month, 2, '-', d, d');
    FieldOrder(a.year, b.year, 4, '-', mo, mo');
  }

  /** Chronological order is a strict total order on instants. */
  lemma BeforeTotal(a: Instant, b: Instant)
    ensures a == b || Before(a, b) || Before(b, a)
    ensures !(Before(a, b) && Before(b, a))
  {
  }
}

=== FILE: keys.dfy ===
/**
 * The single-table key scheme. Every record of the `chappy` table lives under a
 * partition key `pk` and a sort key `sk`, both built by prefixing a name with a
 * fixed tag: channel messages under `CHANNEL#<channel>` / `MESSAGE#<timestamp>`,
 * channel metadata under `CHANNEL#<channel>` / `META#...`, user profiles under
 * `USER#<user>` / `PROFILE#<user>`, and direct messages under `USER#<user>` / `DM#...`.
 */
module Keys {
  import opened Strings
  import opened Optional

  const ChannelTag: string := "CHANNEL#"
  const MessageTag: string := "MESSAGE#"
  const MetaTag: string := "META#"
  const UserTag: string := "USER#"
  const ProfileTag: string := "PROFILE#"
  const DmTag: string := "DM#"

  /** `CHANNEL#${channel}`: the partition of a channel, from which the channel name is recovered. */
  function ChannelPk(channel: string): (pk: string)
    ensures Untag(ChannelTag, pk) == Some(channel)
  {
    UntagTag(ChannelTag, channel);
    ChannelTag + channel
  }

  /** `MESSAGE#${timestamp}`: the sort key of a message, from which its timestamp is recovered. */
  function MessageSk(timestamp: string): (sk: string)
    ensures Untag(MessageTag, sk) == Some(timestamp)
  {
    UntagTag(MessageTag, timestamp);
    MessageTag + timestamp
  }

  /** `USER#${username}`: the partition of a user, from which the user name is recovered. */
  function UserPk(username: string): (pk: string)
    ensures Untag(UserTag, pk) == Some(username)
  {
    UntagTag(UserTag, username);
    UserTag + username
  }

  /** `PROFILE#${username}`: the sort key of a profile, from which the user name is recovered. */
  function ProfileSk(username: string): (sk: string)
    ensures Untag(ProfileTag, sk) == Some(username)
  {
    UntagTag(ProfileTag, username);
    ProfileTag + username
  }

  /** The name behind a tagged key, or none when the key does not carry the tag. */
  function Untag(tag: string, key: string): (r: Option<string>)
    ensures r.Some? <==> StartsWith(key, tag)
    ensures r.Some? ==> key == tag + r.value
  {
    if StartsWith(key, tag) then Some(key[|tag|..]) else None
  }

  /** Tagging and untagging are inverse: a tagged key gives back exactly its name. */
  lemma {:induction false} UntagTag(tag: string, name: string)
    ensures Untag(tag, tag + name) == Some(name)
  {
    assert (tag + name)[..|tag|] == tag;
    assert (tag + name)[|tag|..] == name;
  }

  /** Keys built with one tag are equal exactly when the names are. */
  lemma TagInjective(tag: string, a: string, b: string)
    ensures tag + a == tag + b <==> a == b
  {
    UntagTag(tag, a);
    UntagTag(tag, b);
  }

  lemma ChannelPkInjective(c: string, d: string)
    ensures ChannelPk(c) == ChannelPk(d) <==> c == d
  {
    TagInjective(ChannelTag, c, d);
  }

  lemma MessageSkInjective(t: string, u: string)
    ensures MessageSk(t) == MessageSk(u) <==> t == u
  {
    TagInjective(MessageTag, t, u);
  }

  lemma UserPkInjective(u: string, v: string)
    ensures UserPk(u) == UserPk(v) <==> u == v
  {
    TagInjective(UserTag, u, v);
  }

  /** A key starting with a tag starts with every prefix of that tag. */
  lemma StartsWithTag(tag: string, name: string)
    ensures StartsWith(tag + name, tag)
  {
    assert (tag + name)[..|tag|] == tag;
  }

  /** No string starts with both tags when the tags differ at some position both reach. */
  lemma TagsExclusive(s: string, p: string, q: string, i: nat)
    requires i < |p| && i < |q| && p[i] != q[i]
    ensures !(StartsWith(s, p) && StartsWith(s, q))
  {
    if StartsWith(s, p) {
      assert s[i] == s[..|p|][i] == p[i];
      assert |q| <= |s| ==> s[..|q|][i] == s[i] != q[i];
    }
  }

  /** The partition spaces of channels and users are disjoint. */
  lemma ChannelUserDisjoint(s: string)
    ensures !(StartsWith(s, ChannelTag) && StartsWith(s, UserTag))
  {
    TagsExclusive(s, ChannelTag, UserTag, 0);
  }

  /** Within a partition, message, metadata, profile and direct-message sort keys are told apart by their tags. */
  lemma SortTagsDisjoint(s: string)
    ensures !(StartsWith(s, MessageTag) && StartsWith(s, MetaTag))
    ensures !(StartsWith(s, MessageTag) && StartsWith(s, DmTag))
    ensures !(StartsWith(s, ProfileTag) && StartsWith(s, DmTag))
    ensures !(StartsWith(s, ProfileTag) && StartsWith(s, MessageTag))
    ensures !(StartsWith(s, MetaTag) && StartsWith(s, DmTag))
    ensures !(StartsWith(s, MetaTag) && StartsWith(s, ProfileTag))
  {
    TagsExclusive(s, MessageTag, MetaTag, 3);
    TagsExclusive(s, MessageTag, DmTag, 0);
    TagsExclusive(s, ProfileTag, DmTag, 0);
    TagsExclusive(s, ProfileTag, MessageTag, 0);
    TagsExclusive(s, MetaTag, DmTag, 0);
    TagsExclusive(s, MetaTag, ProfileTag, 0);
  }

  /** A channel partition key never equals a user partition key. */
  lemma ChannelPkNotUserPk(c: string, u: string)
    ensures ChannelPk(c) != UserPk(u)
    ensures !StartsWith(ChannelPk(c), UserTag)
    ensures !StartsWith(UserPk(u), ChannelTag)
  {
    StartsWithTag(ChannelTag, c);
    StartsWithTag(UserTag, u);
    ChannelUserDisjoint(ChannelPk(c));
    ChannelUserDisjoint(UserPk(u));
  }
}

=== FILE: message_routes.dfy ===
/**
 * The messages router (mounted at `/api/messages`): `GET /:channel` and
 * `POST /:channel` on a channel's messages, and `GET /dm/:username` on the
 * direct-message items stored under a user. No route checks whether a channel
 * is private, and there is no route that posts a direct message.
 */
module MessageRoutes {
  import opened Strings
  import opened Optional
  import opened Keys
  import opened Store
  import opened IsoTime

  /** The outcome of `messageSchema.safeParse(req.body)`; the schema itself is not part of this model. */
  datatype Parsed = Parsed(sender: string, content: string) | Rejected(issues: seq<string>)

  /** The responses of the router. */
  datatype Reply =
    | Listed(items: seq<Item>)              // 200, the items as a JSON array
    | Created(message: string, item: Item)  // 201
    | BadRequest(errors: seq<string>)       // 400, the schema's issue messages
    | ServerError(error: string)            // 500, a store command threw

  /** The HTTP status code each reply is sent with. */
  function Status(r: Reply): int {
    match r
    case Listed(_) => 200
    case Created(_, _) => 201
    case BadRequest(_) => 400
    case ServerError(_) => 500
  }

  const SentMessage: string := "Message sent successfully."
  const FetchMessagesFailed: string := "Failed to fetch messages."
  const SendMessageFailed: string := "Failed to send message."
  const FetchDmsFailed: string := "Failed to fetch DMs."

  /** The key condition of `GET /:channel`. */
  function ChannelMessages(channel: string): Condition {
    KeyCondition(ChannelPk(channel), MessageTag)
  }

  /** The key condition of `GET /dm/:username`. */
  function UserDms(username: string): Condition {
    KeyCondition(UserPk(username), DmTag)
  }

  /**
   * The item `POST /:channel` stores: its keys give back the channel and the
   * timestamp, `createdAt` is that same timestamp, and the only other
   * attributes are the validated sender and content.
   */
  function NewMessage(channel: string, sender: string, content: string, timestamp: string): (item: Item)
    ensures Untag(ChannelTag, item.pk) == Some(channel)
    ensures Untag(MessageTag, item.sk) == Some(timestamp)
    ensures item.Get("createdAt") == Some(Str(timestamp))
    ensures item.Get("sender") == Some(Str(sender)) && item.Get("content") == Some(Str(content))
    ensures item.attrs.Keys == {"sender", "content", "createdAt"}
  {
    UntagTag(ChannelTag, channel);
    UntagTag(MessageTag, timestamp);
    Item(ChannelPk(channel), MessageSk(timestamp),
         map["sender" := Str(sender), "content" := Str(content), "createdAt" := Str(timestamp)])
  }

  /** `GET /:channel`: every message item of the channel, each once, in ascending sort-key order. */
  method GetChannelMessages(db: Table, channel: string, fault: bool) returns (reply: Reply)
    requires db.Valid()
    ensures Status(reply) == if fault then 500 else 200
    ensures fault ==> reply == ServerError(FetchMessagesFailed)
    ensures !fault ==> reply.Listed? && Lists(reply.items, db.items, ChannelMessages(channel))
    ensures !fault ==> AscendingSk(reply.items)
  {
    if fault {
      return ServerError(FetchMessagesFailed);
    }
    var items := db.Query(ChannelPk(channel), MessageTag);
    reply := Listed(items);
  }

  /**
   * `POST /:channel`: a body the schema rejects gets 400 and changes nothing;
   * otherwise one item is put under the channel's key and the current time
   * (its ISO text, as `toISOString` writes it for years 0 to 9999), and the
   * 201 reply carries that same item.
   */
  method PostChannelMessage(db: Table, channel: string, body: Parsed, now: Instant, fault: bool) returns (reply: Reply)
    requires db.Valid()
    modifies db
    ensures db.Valid()
    ensures Status(reply) == if body.Rejected? then 400 else if fault then 500 else 201
    ensures body.Rejected? ==> reply == BadRequest(body.issues) && db.items == old(db.items)
    ensures body.Parsed? && fault ==> reply == ServerError(SendMessageFailed) && db.items == old(db.items)
    ensures body.Parsed? && !fault ==>
      var item := NewMessage(channel, body.sender, body.content, IsoString(now));
      reply == Created(SentMessage, item) && db.items == old(db.items)[item.KeyOf() := item]
  {
    if body.Rejected? {
      return BadRequest(body.issues);
    }
    var timestamp := IsoString(now);
    var item := NewMessage(channel, body.sender, body.content, timestamp);
    if fault {
      return ServerError(SendMessageFailed);
    }
    db.Put(item);
    reply := Created(SentMessage, item);
  }

  /** `GET /dm/:username`: every item under the user's partition whose sort key starts with `DM#`. */
  method GetUserDms(db: Table, username: string, fault: bool) returns (reply: Reply)
    requires db.Valid()
    ensures Status(reply) == if fault then 500 else 200
    ensures fault ==> reply == ServerError(FetchDmsFailed)
    ensures !fault ==> reply.Listed? && Lists(reply.items, db.items, UserDms(username))
    ensures !fault ==> AscendingSk(reply.items)
  {
    if fault {
      return ServerError(FetchDmsFailed);
    }
    var items := db.Query(UserPk(username), DmTag);
    reply := Listed(items);
  }

  /** Read after write: once a message is put, listing its channel returns it. */
  lemma PostThenList(m: map<Key, Item>, channel: string, sender: string, content: string, timestamp: string, r: seq<Item>)
    requires WellKeyed(m)
    requires Lists(r, m[NewMessage(channel, sender, content, timestamp).KeyOf() := NewMessage(channel, sender, content, timestamp)],
                   ChannelMessages(channel))
    ensures NewMessage(channel, sender, content, timestamp) in r
  {
    var item := NewMessage(channel, sender, content, timestamp);
    StartsWithTag(MessageTag, timestamp);
    assert Selects(ChannelMessages(channel), item.KeyOf());
  }

  /** A post to one channel leaves what every other channel lists unchanged. */
  lemma PostLeavesOtherChannels(m: map<Key, Item>, c: string, d: string, sender: string, content: string, timestamp: string)
    requires c != d
    ensures var item := NewMessage(c, sender, content, timestamp);
      Selected(m[item.KeyOf() := item], ChannelMessages(d)) == Selected(m, ChannelMessages(d))
  {
    var item := NewMessage(c, sender, content, timestamp);
    ChannelPkInjective(c, d);
    assert !Selects(ChannelMessages(d), item.KeyOf());
    var m' := m[item.KeyOf() := item];
    assert forall k :: k in m' && Selects(ChannelMessages(d), k) <==> k in m && Selects(ChannelMessages(d), k);
    assert forall k :: k in m && Selects(ChannelMessages(d), k) ==> m'[k] == m[k];
  }

  /** A channel post never changes what any user's direct-message listing returns. */
  lemma PostLeavesDms(m: map<Key, Item>, c: string, u: string, sender: string, content: string, timestamp: string)
    ensures var item := NewMessage(c, sender, content, timestamp);
      Selected(m[item.KeyOf() := item], UserDms(u)) == Selected(m, UserDms(u))
  {
    var item := NewMessage(c, sender, content, timestamp);
    ChannelPkNotUserPk(c, u);
    assert !Selects(UserDms(u), item.KeyOf());
    var m' := m[item.KeyOf() := item];
    assert forall k :: k in m' && Selects(UserDms(u), k) <==> k in m && Selects(UserDms(u), k);
    assert forall k :: k in m && Selects(UserDms(u), k) ==> m'[k] == m[k];
  }

  /** The direct-message listing of a user never holds an item from a channel partition. */
  lemma DmsAreNotChannelItems(m: map<Key, Item>, u: string, x: Item)
    requires WellKeyed(m)
    requires x in Selected(m, UserDms(u))
    ensures !StartsWith(x.pk, ChannelTag)
    ensures forall c :: x !in Selected(m, ChannelMessages(c))
  {
    ChannelPkNotUserPk("", u);
    forall c | x in Selected(m, ChannelMessages(c))
      ensures false
    {
      ChannelPkNotUserPk(c, u);
    }
  }

  /**
   * Two posts share a key exactly when they go to the same channel at the same
   * timestamp; then the later put replaces the earlier one.
   */
  lemma SameKeyIffSameInstant(c: string, d: string, s1: string, x1: string, s2: string, x2: string, t1: string, t2: string)
    ensures NewMessage(c, s1, x1, t1).KeyOf() == NewMessage(d, s2, x2, t2).KeyOf() <==> c == d && t1 == t2
  {
    ChannelPkInjective(c, d);
    MessageSkInjective(t1, t2);
  }

  lemma SecondPutReplacesFirst(m: map<Key, Item>, c: string, s1: string, x1: string, s2: string, x2: string, t: string)
    ensures var a, b := NewMessage(c, s1, x1, t), NewMessage(c, s2, x2, t);
      m[a.KeyOf() := a][b.KeyOf() := b] == m[b.KeyOf() := b]
  {
  }

  /** Message sort keys compare as the timestamps they embed. */
  lemma MessageSkOrder(t: string, u: string)
    ensures Less(MessageSk(t), MessageSk(u)) <==> Less(t, u)
  {
    LessConcat(MessageTag, t, MessageTag, u);
    LessIrreflexive(MessageTag);
  }

  /** A message item written at instant `t`: its sort key and `createdAt` both carry `t`'s ISO string. */
  ghost predicate StampedAt(x: Item, t: Instant) {
    x.sk == MessageSk(IsoString(t)) && x.Get("createdAt") == Some(Str(IsoString(t)))
  }

  lemma NewMessageStamped(channel: string, sender: string, content: string, now: Instant)
    ensures StampedAt(NewMessage(channel, sender, content, IsoString(now)), now)
  {
  }

  /**
   * A channel history in ascending sort-key order, made of items written at
   * valid instants, is in strictly ascending chronological order of `createdAt`.
   */
  lemma HistoryIsChronological(r: seq<Item>, times: seq<Instant>)
    requires AscendingSk(r) && |times| == |r|
    requires forall i :: 0 <= i < |r| ==> times[i].Valid() && StampedAt(r[i], times[i])
    ensures forall i, j :: 0 <= i < j < |r| ==> Before(times[i], times[j])
  {
    forall i, j | 0 <= i < j < |r|
      ensures Before(times[i], times[j])
    {
      MessageSkOrder(IsoString(times[i]), IsoString(times[j]));
      IsoOrder(times[i], times[j]);
    }
  }

  /** The HTTP methods the router answers. */
  datatype Verb = Get | Post

  /** Which handler of the router serves a request. */
  datatype Handler =
    | ListChannelMessages(channel: string)
    | AddChannelMessage(channel: string)
    | ListUserDms(username: string)
    | NoRoute

  /**
   * Route matching for a path below `/api/messages`, given as its `/`-separated
   * segments. The routes are tried in the order they are declared: `GET /:channel`,
   * `POST /:channel`, `GET /dm/:username`; a parameter matches one non-empty
   * segment, literals match regardless of case, and one trailing slash is tolerated.
   */
  function Route(verb: Verb, segments: seq<string>): (h: Handler)
    ensures h.ListChannelMessages? ==> verb.Get? && 1 <= |segments| <= 2 && segments[0] == h.channel != ""
    ensures h.AddChannelMessage? ==> verb.Post? && 1 <= |segments| <= 2 && segments[0] == h.channel != ""
    ensures h.ListUserDms? ==> verb.Get? && 2 <= |segments| <= 3 && DmSegment(segments[0]) && segments[1] == h.username != ""
    ensures ChannelPath(segments) ==>
      h == if verb.Get? then ListChannelMessages(segments[0]) else AddChannelMessage(segments[0])
    ensures verb.Get? && DmPath(segments) ==> h == ListUserDms(segments[1])
    ensures h.NoRoute? <==> !ChannelPath(segments) && !(verb.Get? && DmPath(segments))
  {
    var segs := if |segments| >= 2 && segments[|segments| - 1] == "" then segments[..|segments| - 1] else segments;
    if |segs| == 1 && segs[0] != "" then
      if verb == Get then ListChannelMessages(segs[0]) else AddChannelMessage(segs[0])
    else if verb == Get && |segs| == 2 && DmSegment(segs[0]) && segs[1] != "" then
      ListUserDms(segs[1])
    else
      NoRoute
  }

  /** The shape of `/:channel`: one non-empty segment, then at most an empty one. */
  predicate ChannelPath(segments: seq<string>) {
    (|segments| == 1 || (|segments| == 2 && segments[1] == "")) && segments[0] != ""
  }

  /** The shape of `/dm/:username`: the literal, one non-empty segment, then at most an empty one. */
  predicate DmPath(segments: seq<string>) {
    (|segments| == 2 || (|segments| == 3 && segments[2] == "")) && DmSegment(segments[0]) && segments[1] != ""
  }

  /** The literal `dm` of `/dm/:username`; route literals match regardless of case. */
  predicate DmSegment(s: string) {
    |s| == 2 && (s[0] == 'd' || s[0] == 'D') && (s[1] == 'm' || s[1] == 'M')
  }

  /** The segments of a path below the router's mount point. */
  function Segments(path: string): seq<string> {
    if StartsWith(path, "/") then Split(path[1..], '/') else [path]
  }

  /** No POST route accepts a path of two or more real segments, so no request can post a direct message. */
  lemma NoDmPost(segments: seq<string>)
    requires |segments| >= 2 && segments[1] != ""
    ensures !Route(Post, segments).AddChannelMessage?
  {
  }
}

=== FILE: optional.dfy ===
/** The absent-or-present value used wherever the source has `undefined` or `null`. */
module Optional {
  datatype Option<+T> = None | Some(value: T)
}

=== FILE: store.dfy ===
/**
 * The one DynamoDB table (`chappy`) all routes share, seen through the four
 * commands the routes send it: a point put, a query by partition key and
 * sort-key prefix, a scan filtered by key prefixes, and a point delete.
 */
module Store {
  import opened Strings
  import opened Optional

  /** An attribute value as the routes read it from an unmarshalled item. */
  datatype Attr = Str(s: string) | Bool(b: bool) | Num(n: int) | Null

  /** JavaScript truthiness of an attribute read from an item; an absent attribute reads as `undefined`. */
  predicate Truthy(v: Option<Attr>) {
    match v
    case None => false
    case Some(Str(s)) => s != ""
    case Some(Bool(b)) => b
    case Some(Num(n)) => n != 0
    case Some(Null) => false
  }

  datatype Key = Key(pk: string, sk: string)

  /** An item: its two key attributes and its other attributes by name. */
  datatype Item = Item(pk: string, sk: string, attrs: map<string, Attr>)
  {
    function KeyOf(): Key { Key(pk, sk) }

    /** `item.<name>`, undefined when the item has no such attribute. */
    function Get(name: string): Option<Attr> {
      if name in attrs then Some(attrs[name]) else None
    }
  }

  /** What a query's key condition or a scan's filter expression selects. */
  datatype Condition =
    | KeyCondition(pk: string, skPrefix: string)       // pk = :pk AND begins_with(sk, :prefix)
    | PrefixFilter(pkPrefix: string, skPrefix: string) // begins_with(pk, :p) AND begins_with(sk, :q)

  predicate Selects(c: Condition, k: Key) {
    match c
    case KeyCondition(pk, p) => k.pk == pk && StartsWith(k.sk, p)
    case PrefixFilter(pp, sp) => StartsWith(k.pk, pp) && StartsWith(k.sk, sp)
  }

  /** Every stored item sits under its own key. */
  ghost predicate WellKeyed(m: map<Key, Item>) {
    forall k :: k in m ==> m[k].KeyOf() == k
  }

  /** The items of `m` that `c` selects. */
  ghost function Selected(m: map<Key, Item>, c: Condition): set<Item> {
    set k | k in m && Selects(c, k) :: m[k]
  }

  /** `r` lists every item of `m` that `c` selects, nothing else, and each once. */
  ghost predicate Lists(r: seq<Item>, m: map<Key, Item>, c: Condition) {
    && (forall i :: 0 <= i < |r| ==> r[i].KeyOf() in m && m[r[i].KeyOf()] == r[i] && Selects(c, r[i].KeyOf()))
    && (forall k :: k in m && Selects(c, k) ==> m[k] in r)
    && (forall i, j :: 0 <= i < j < |r| ==> r[i].KeyOf() != r[j].KeyOf())
  }

  /** Strictly ascending by sort key: the order of a query's result. */
  ghost predicate AscendingSk(r: seq<Item>) {
    forall i, j :: 0 <= i < j < |r| ==> Less(r[i].sk, r[j].sk)
  }

  /** A listing holds exactly the selected items. */
  lemma ListsSelected(r: seq<Item>, m: map<Key, Item>, c: Condition, x: Item)
    requires WellKeyed(m) && Lists(r, m, c)
    ensures x in r <==> x in Selected(m, c)
  {
    if x in r {
      var i :| 0 <= i < |r| && r[i] == x;
      assert m[x.KeyOf()] == x;
    }
  }

  /**
   * A listing in progress: `r` holds, once each, the selected items whose keys
   * have left `pending`, and `pending` holds the selected keys still to list.
   */
  ghost predicate Listing(r: seq<Item>, pending: set<Key>, m: map<Key, Item>, c: Condition) {
    && pending <= m.Keys
    && (forall k :: k in pending ==> Selects(c, k))
    && (forall i :: 0 <= i < |r| ==>
          r[i].KeyOf() in m && m[r[i].KeyOf()] == r[i] && Selects(c, r[i].KeyOf()) && r[i].KeyOf() !in pending)
    && (forall k :: k in m && Selects(c, k) && k !in pending ==> m[k] in r)
    && (forall i, j :: 0 <= i < j < |r| ==> r[i].KeyOf() != r[j].KeyOf())
  }

  /** In an ordered listing every listed sort key precedes every pending one. */
  ghost predicate Ordered(r: seq<Item>, pending: set<Key>) {
    AscendingSk(r) && forall i, k :: 0 <= i < |r| && k in pending ==> Less(r[i].sk, k.sk)
  }

  lemma ListingStart(m: map<Key, Item>, c: Condition)
    ensures Listing([], (set k | k in m && Selects(c, k)), m, c)
  {
  }

  lemma ListingStep(r: seq<Item>, pending: set<Key>, m: map<Key, Item>, c: Condition, k: Key)
    requires WellKeyed(m) && Listing(r, pending, m, c) && k in pending
    ensures Listing(r + [m[k]], pending - {k}, m, c)
  {
    var r' := r + [m[k]];
    forall k' | k' in m && Selects(c, k') && k' !in pending - {k}
      ensures m[k'] in r'
    {
      if k' == k { assert r'[|r|] == m[k]; } else { assert m[k'] in r; }
    }
  }

  lemma ListingDone(r: seq<Item>, m: map<Key, Item>, c: Condition)
    requires Listing(r, {}, m, c)
    ensures Lists(r, m, c)
  {
  }

  lemma OrderedStep(r: seq<Item>, pending: set<Key>, k: Key, x: Item)
    requires Ordered(r, pending) && k in pending && x.sk == k.sk
    requires forall k' :: k' in pending && k' != k ==> Less(k.sk, k'.sk)
    ensures Ordered(r + [x], pending - {k})
  {
  }

  /** Every non-empty set of keys has one whose sort key no other sort key in the set precedes. */
  lemma {:induction false} LeastSortKey(s: set<Key>) returns (least: Key)
    requires s != {}
    ensures least in s && forall k :: k in s ==> !Less(k.sk, least.sk)
    decreases |s|
  {
    var x :| x in s;
    if s == {x} {
      LessIrreflexive(x.sk);
      least := x;
    } else {
      var m := LeastSortKey(s - {x});
      if Less(x.sk, m.sk) {
        forall k | k in s ensures !Less(k.sk, x.sk) {
          if k == x {
            LessIrreflexive(x.sk);
          } else if Less(k.sk, x.sk) {
            LessTransitive(k.sk, x.sk, m.sk);
          }
        }
        least := x;
      } else {
        least := m;
      }
    }
  }

  class Table {
    var items: map<Key, Item>

    ghost predicate Valid()
      reads this
    {
      WellKeyed(items)
    }

    constructor ()
      ensures Valid() && items == map[]
    {
      items := map[];
    }

    /** `PutCommand`: stores `item` under its key, replacing whatever was there. */
    method Put(item: Item)
      requires Valid()
      modifies this
      ensures Valid()
      ensures items == old(items)[item.KeyOf() := item]
    {
      items := items[item.KeyOf() := item];
    }

    /** `DeleteCommand`: removes the item under `k`; a missing key is no error. */
    method Delete(k: Key)
      requires Valid()
      modifies this
      ensures Valid()
      ensures items == old(items) - {k}
    {
      items := items - {k};
    }

    /** `QueryCommand` with `pk = :pk AND begins_with(sk, :prefix)`: the matching items in ascending sort-key order. */
    method Query(pk: string, skPrefix: string) returns (r: seq<Item>)
      requires Valid()
      ensures Lists(r, items, KeyCondition(pk, skPrefix))
      ensures AscendingSk(r)
    {
      var c := KeyCondition(pk, skPrefix);
      var pending := set k | k in items && Selects(c, k);
      ListingStart(items, c);
      r := [];
      while pending != {}
        invariant Listing(r, pending, items, c)
        invariant Ordered(r, pending)
        decreases pending
      {
        ghost var least := LeastSortKey(pending);
        var k :| k in pending && forall k' :: k' in pending ==> !Less(k'.sk, k.sk);
        forall k' | k' in pending && k' != k
          ensures Less(k.sk, k'.sk)
        {
          LessTotal(k.sk, k'.sk);
        }
        ListingStep(r, pending, items, c, k);
        OrderedStep(r, pending, k, items[k]);
        r := r + [items[k]];
        pending := pending - {k};
      }
      ListingDone(r, items, c);
    }

    /** `ScanCommand` with `begins_with(pk, :p) AND begins_with(sk, :q)`: the matching items, in no promised order. */
    method Scan(pkPrefix: string, skPrefix: string) returns (r: seq<Item>)
      requires Valid()
      ensures Lists(r, items, PrefixFilter(pkPrefix, skPrefix))
    {
      var c := PrefixFilter(pkPrefix, skPrefix);
      var pending := set k | k in items && Selects(c, k);
      ListingStart(items, c);
      r := [];
      while pending != {}
        invariant Listing(r, pending, items, c)
        decreases pending
      {
        var k :| k in pending;
        ListingStep(r, pending, items, c, k);
        r := r + [items[k]];
        pending := pending - {k};
      }
      ListingDone(r, items, c);
    }
  }
}

=== FILE: strings.dfy ===
/**
 * The JavaScript string operations the chat code relies on, over `string`
 * (a sequence of Unicode scalar values): `startsWith`, the code-point order
 * used to compare string sort keys, `replace` with a string pattern,
 * `split` on one character, and `trim`.
 */
module Strings {
  import opened Optional

  /** `s.startsWith(p)`. */
  predicate StartsWith(s: string, p: string) {
    |p| <= |s| && s[..|p|] == p
  }

  /**
   * Strict lexicographic order by code point. DynamoDB orders string sort keys
   * by their UTF-8 bytes, and UTF-8 byte order agrees with code-point order.
   */
  predicate Less(a: string, b: string) {
    if a == [] then b != []
    else if b == [] then false
    else a[0] < b[0] || (a[0] == b[0] && Less(a[1..], b[1..]))
  }

  lemma {:induction false} LessIrreflexive(a: string)
    ensures !Less(a, a)
  {
    if a != [] { LessIrreflexive(a[1..]); }
  }

  lemma {:induction false} LessTransitive(a: string, b: string, c: string)
    requires Less(a, b) && Less(b, c)
    ensures Less(a, c)
  {
    if a != [] && b != [] && c != [] && a[0] == b[0] == c[0] {
      LessTransitive(a[1..], b[1..], c[1..]);
    }
  }

  lemma {:induction false} LessTotal(a: string, b: string)
    ensures a == b || Less(a, b) || Less(b, a)
  {
    if a != [] && b != [] && a[0] == b[0] {
      LessTotal(a[1..], b[1..]);
      if a[1..] == b[1..] {
        assert a == [a[0]] + a[1..] && b == [b[0]] + b[1..];
      }
    }
  }

  /**
   * Comparing two concatenations whose first parts have the same length
   * compares the first parts, and the second parts only when the first
   * parts are equal.
   */
  lemma {:induction false} LessConcat(x: string, y: string, x': string, y': string)
    requires |x| == |x'|
    ensures Less(x + y, x' + y') <==> Less(x, x') || (x == x' && Less(y, y'))
  {
    if x != [] {
      assert (x + y)[0] == x[0] && (x' + y')[0] == x'[0];
      assert (x + y)[1..] == x[1..] + y && (x' + y')[1..] == x'[1..] + y';
      LessConcat(x[1..], y, x'[1..], y');
      if x[0] == x'[0] && x[1..] == x'[1..] {
        assert x == [x[0]] + x[1..] && x' == [x'[0]] + x'[1..];
      }
    } else {
      assert x + y == y && x' + y' == y';
    }
  }

  /** The first index at which `pat` occurs in `s` (`s.indexOf(pat)`, or none for -1). */
  function IndexOf(s: string, pat: string): (r: Option<nat>)
    ensures r.Some? ==> r.value <= |s| && StartsWith(s[r.value..], pat)
    ensures r.Some? ==> forall i :: 0 <= i < r.value ==> !StartsWith(s[i..], pat)
    ensures r.None? ==> forall i :: 0 <= i <= |s| ==> !StartsWith(s[i..], pat)
    decreases |s|
  {
    if StartsWith(s, pat) then Some(0)
    else if s == [] then None
    else
      SuffixShift(s);
      match IndexOf(s[1..], pat)
      case None => None
      case Some(i) => Some(i + 1)
  }

  /** The suffixes of `s` past its head are the suffixes of its tail. */
  lemma SuffixShift(s: string)
    requires s != []
    ensures forall j :: 1 <= j <= |s| ==> s[j..] == s[1..][j - 1..]
  {
  }

  /** `s.replace(pat, rep)` with a string pattern: only the first occurrence is replaced. */
  function ReplaceFirst(s: string, pat: string, rep: string): string {
    match IndexOf(s, pat)
    case None => s
    case Some(i) => s[..i] + rep + s[i + |pat|..]
  }

  /** Replacing the first occurrence of a prefix by nothing drops that prefix. */
  lemma ReplaceLeadingPrefix(s: string, pat: string)
    requires StartsWith(s, pat)
    ensures ReplaceFirst(s, pat, "") == s[|pat|..]
  {
    assert s[0..] == s;
  }

  /** A pattern that does not occur leaves the string unchanged. */
  lemma ReplaceAbsent(s: string, pat: string, rep: string)
    requires forall i :: 0 <= i <= |s| ==> !StartsWith(s[i..], pat)
    ensures ReplaceFirst(s, pat, rep) == s
  {
  }

  /** When `pat` first occurs at `i`, exactly that occurrence is replaced and the rest is kept. */
  lemma ReplaceFirstAt(s: string, pat: string, rep: string, i: nat)
    requires i <= |s| && StartsWith(s[i..], pat)
    requires forall j :: 0 <= j < i ==> !StartsWith(s[j..], pat)
    ensures i + |pat| <= |s|
    ensures ReplaceFirst(s, pat, rep) == s[..i] + rep + s[i + |pat|..]
  {

  }

  /** A one-character pattern that is absent occurs at no position. */
  lemma CharAbsent(s: string, c: char)
    requires c !in s
    ensures forall i :: 0 <= i <= |s| ==> !StartsWith(s[i..], [c])
  {
    forall i | 0 <= i <= |s|
      ensures !StartsWith(s[i..], [c])
    {
      if i < |s| {
        assert s[i] in s;
        assert s[i..][..1] == [s[i]];
      }
    }
  }

  /** `s.split(sep)` for a one-character separator: never empty, no piece holds the separator. */
  function Split(s: string, sep: char): (parts: seq<string>)
    ensures |parts| >= 1
    ensures forall p :: p in parts ==> sep !in p
    decreases |s|
  {
    if sep !in s then [s]
    else
      var i := FirstIndex(s, sep);
      [s[..i]] + Split(s[i + 1..], sep)
  }

  /** The first position of `c` in `s`. */
  function FirstIndex(s: string, c: char): (i: nat)
    requires c in s
    ensures i < |s| && s[i] == c && c !in s[..i]
  {
    if s[0] == c then 0 else FirstIndex(s[1..], c) + 1
  }

  /** `parts.join(sep)`. */
  function Join(parts: seq<string>, sep: char): string
    requires |parts| >= 1
  {
    if |parts| == 1 then parts[0] else parts[0] + [sep] + Join(parts[1..], sep)
  }

  /** Splitting and joining again gives back the original string. */
  lemma {:induction false} SplitJoin(s: string, sep: char)
    ensures Join(Split(s, sep), sep) == s
    decreases |s|
  {
    if sep in s {
      var i := FirstIndex(s, sep);
      SplitJoin(s[i + 1..], sep);
      assert s == s[..i] + [sep] + s[i + 1..];
    }
  }

  /** A piece free of the separator, then the separator, then the rest, splits at that separator. */
  lemma SplitCons(a: string, sep: char, b: string)
    requires sep !in a
    ensures Split(a + [sep] + b, sep) == [a] + Split(b, sep)
  {
    var s := a + [sep] + b;
    assert s[|a|] == sep;
    assert forall j :: 0 <= j < |a| ==> s[j] == a[j];
    var i := FirstIndex(s, sep);
    assert sep in s[..|a| + 1];
    assert s[..i] == a && s[i + 1..] == b;
  }

  /** A string free of the separator splits into itself alone. */
  lemma SplitNone(a: string, sep: char)
    requires sep !in a
    ensures Split(a, sep) == [a]
  {
  }

  /**
   * The characters `String.prototype.trim` removes: the ECMAScript WhiteSpace
   * characters (tab, vertical tab, form feed, no-break space, the byte order
   * mark and the Unicode space separators) and the LineTerminator characters.
   */
  predicate IsJsSpace(c: char) {
    || c == '\t' || c == '\U{000B}' || c == '\U{000C}' || c == ' ' || c == '\U{00A0}' || c == '\U{FEFF}'
    || c == '\U{1680}' || ('\U{2000}' <= c <= '\U{200A}') || c == '\U{202F}' || c == '\U{205F}' || c == '\U{3000}'
    || c == '\n' || c == '\r' || c == '\U{2028}' || c == '\U{2029}'
  }

  /** Every character of `s` is white space or a line terminator. */
  predicate AllSpace(s: string) {
    s == [] || (IsJsSpace(s[0]) && AllSpace(s[1..]))
  }

  /** Each character of an all-space string is a space. */
  lemma {:induction false} AllSpaceAt(s: string, k: nat)
    requires k < |s|
    ensures AllSpace(s) ==> IsJsSpace(s[k])
  {
    if k > 0 {
      AllSpaceAt(s[1..], k - 1);
    }
  }

  /** Two all-space strings make an all-space string. */
  lemma {:induction false} AllSpaceConcat(a: string, b: string)
    requires AllSpace(a) && AllSpace(b)
    ensures AllSpace(a + b)
  {
    if a == [] {
      assert a + b == b;
    } else {
      assert (a + b)[0] == a[0] && (a + b)[1..] == a[1..] + b;
      AllSpaceConcat(a[1..], b);
    }
  }

  /** The number of spaces `s` starts with. */
  function LeadingSpaces(s: string): (n: nat)
    ensures n <= |s| && AllSpace(s[..n])
    ensures n < |s| ==> !IsJsSpace(s[n])
  {
    if s != [] && IsJsSpace(s[0]) then
      var n := LeadingSpaces(s[1..]);
      assert s[..n + 1][1..] == s[1..][..n];
      1 + n
    else 0
  }

  function TrimStart(s: string): (r: string)
    ensures r == s[LeadingSpaces(s)..]
  {
    if s != [] && IsJsSpace(s[0]) then
      TrimStart(s[1..])
    else s
  }

  function TrimEnd(s: string): (r: string)
    ensures |r| <= |s| && r == s[..|r|]
    ensures AllSpace(s[|r|..])
    ensures r != [] ==> !IsJsSpace(r[|r| - 1])
  {
    if s != [] && IsJsSpace(s[|s| - 1]) then
      var r := TrimEnd(s[..|s| - 1]);
      assert s[..|s| - 1][|r|..] == s[|r|..|s| - 1];
      assert s[|r|..] == s[|r|..|s| - 1] + [s[|s| - 1]];
      AllSpaceConcat(s[|r|..|s| - 1], [s[|s| - 1]]);
      r
    else s
  }

  /**
   * `s.trim()`: the result is the slice of `s` that starts after its leading
   * spaces and is followed by spaces only; it neither starts nor ends with a space.
   */
  function Trim(s: string): (r: string)
    ensures LeadingSpaces(s) + |r| <= |s|
    ensures r == s[LeadingSpaces(s)..LeadingSpaces(s) + |r|]
    ensures AllSpace(s[LeadingSpaces(s) + |r|..])
    ensures r != [] ==> !IsJsSpace(r[0]) && !IsJsSpace(r[|r| - 1])
  {
    var t := TrimStart(s);
    var r := TrimEnd(t);
    SliceOfSuffix(s, LeadingSpaces(s), t, r);
    r
  }

  /** A space-followed prefix `r` of the suffix `t == s[i..]` is a space-followed slice of `s` at `i`. */
  lemma SliceOfSuffix(s: string, i: nat, t: string, r: string)
    requires i <= |s| && t == s[i..]
    requires |r| <= |t| && r == t[..|r|] && AllSpace(t[|r|..])
    ensures i + |r| <= |s| && r == s[i..i + |r|] && AllSpace(s[i + |r|..])
    ensures r != [] ==> r[0] == s[i]
  {
    assert s[i + |r|..] == t[|r|..];
  }

  /** The trimmed string is empty exactly when the input is made of spaces only. */
  lemma TrimEmptyIff(s: string)
    ensures Trim(s) == [] <==> AllSpace(s)
  {
    var r := Trim(s);
    var i := LeadingSpaces(s);
    if r != [] {
      assert r[0] == s[i];
      AllSpaceAt(s, i);
    } else {
      assert s[i..] == s[i + |r|..];
      AllSpaceConcat(s[..i], s[i..]);
      assert s == s[..i] + s[i..];
    }
  }

}

=== FILE: user_routes.dfy ===
/**
 * The users router (mounted at `/api/users`): `GET /` scans the profile items
 * and projects each to its `username`; `DELETE /:username` deletes one
 * profile item and nothing else.
 */
module UserRoutes {
  import opened Strings
  import opened Optional
  import opened Keys
  import opened Store
  import opened MessageRoutes

  /** `{ username: u.username }`; the attribute is undefined when the item lacks it. */
  datatype UserEntry = UserEntry(username: Option<Attr>)

  datatype Reply = Users(entries: seq<UserEntry>) | Deleted(message: string) | Failure(error: string)

  /** The HTTP status code each reply is sent with. */
  function Status(r: Reply): int {
    match r
    case Users(_) => 200
    case Deleted(_) => 200
    case Failure(_) => 500
  }

  const FetchUsersFailed: string := "Failed to fetch users"
  const DeleteUserFailed: string := "Failed to delete user"
  const UserDeleted: string := "User deleted successfully"

  /** The scan filter of `GET /`. */
  function Profiles(): Condition {
    PrefixFilter(UserTag, ProfileTag)
  }

  /** The key `DELETE /:username` removes. */
  function ProfileKey(username: string): Key {
    Key(UserPk(username), ProfileSk(username))
  }

  /** `items.map((u) => ({ username: u.username }))`: one entry per item, in the same order. */
  function Project(items: seq<Item>): (r: seq<UserEntry>)
    ensures |r| == |items|
    ensures forall i :: 0 <= i < |items| ==> r[i] == UserEntry(items[i].Get("username"))
  {
    if items == [] then [] else [UserEntry(items[0].Get("username"))] + Project(items[1..])
  }

  /** `GET /`: the profile scan, projected. */
  method ListUsers(db: Table, fault: bool) returns (reply: Reply, ghost scanned: seq<Item>)
    requires db.Valid()
    ensures Status(reply) == if fault then 500 else 200
    ensures fault ==> reply == Failure(FetchUsersFailed)
    ensures !fault ==> Lists(scanned, db.items, Profiles()) && reply == Users(Project(scanned))
  {
    if fault {
      return Failure(FetchUsersFailed), [];
    }
    var items := db.Scan(UserTag, ProfileTag);
    scanned := items;
    reply := Users(Project(items));
  }

  /** `DELETE /:username`: removes exactly the profile key and reports success whether or not it existed. */
  method DeleteUser(db: Table, username: string, fault: bool) returns (reply: Reply)
    requires db.Valid()
    modifies db
    ensures db.Valid()
    ensures Status(reply) == if fault then 500 else 200
    ensures fault ==> reply == Failure(DeleteUserFailed) && db.items == old(db.items)
    ensures !fault ==> reply == Deleted(UserDeleted) && db.items == old(db.items) - {ProfileKey(username)}
  {
    if fault {
      return Failure(DeleteUserFailed);
    }
    db.Delete(ProfileKey(username));
    reply := Deleted(UserDeleted);
  }

  /** Deleting a profile leaves every user's direct-message items in place. */
  lemma DeleteKeepsDms(m: map<Key, Item>, u: string, v: string)
    ensures Selected(m - {ProfileKey(u)}, UserDms(v)) == Selected(m, UserDms(v))
  {
    StartsWithTag(ProfileTag, u);
    SortTagsDisjoint(ProfileSk(u));
    assert !Selects(UserDms(v), ProfileKey(u));
    var m' := m - {ProfileKey(u)};
    assert forall k :: k in m' && Selects(UserDms(v), k) <==> k in m && Selects(UserDms(v), k);
  }

  /** Deleting a profile leaves every channel's messages in place: the deleted user's messages stay. */
  lemma DeleteKeepsChannelMessages(m: map<Key, Item>, u: string, c: string)
    ensures Selected(m - {ProfileKey(u)}, ChannelMessages(c)) == Selected(m, ChannelMessages(c))
  {
    ChannelPkNotUserPk(c, u);
    assert !Selects(ChannelMessages(c), ProfileKey(u));
    var m' := m - {ProfileKey(u)};
    assert forall k :: k in m' && Selects(ChannelMessages(c), k) <==> k in m && Selects(ChannelMessages(c), k);
  }

  /** Deleting twice is deleting once. */
  lemma DeleteIdempotent(m: map<Key, Item>, u: string)
    ensures (m - {ProfileKey(u)}) - {ProfileKey(u)} == m - {ProfileKey(u)}
  {
  }

  /** After the delete, no listed user entry comes from the deleted profile item. */
  lemma DeletedProfileNotListed(m: map<Key, Item>, u: string, r: seq<Item>)
    requires Lists(r, m - {ProfileKey(u)}, Profiles())
    ensures forall i :: 0 <= i < |r| ==> r[i].KeyOf() != ProfileKey(u)
  {
  }
}

=== FILE: user_store.dfy ===
/**
 * The session store (`useUserStore`): the signed-in user's name and token.
 * Each action is a zustand `set`, a shallow merge that here overwrites both
 * fields.
 */
module UserStore {
  import opened Optional

  /** The store's data, as a value. */
  datatype Session = Session(username: Option<string>, token: Option<string>)

  const SignedOut: Session := Session(None, None)

  class UserStore {
    var username: Option<string>
    var token: Option<string>

    function State(): Session
      reads this
    {
      Session(username, token)
    }

    /** The store starts signed out. */
    constructor ()
      ensures State() == SignedOut
    {
      username := None;
      token := None;
    }

    /** `setUser(username, token)`: replaces both fields. */
    method SetUser(name: string, tok: string)
      modifies this
      ensures State() == Session(Some(name), Some(tok))
    {
      username, token := Some(name), Some(tok);
    }

    /** `logout()`: clears both fields. */
    method Logout()
      modifies this
      ensures State() == SignedOut
    {
      username, token := None, None;
    }
  }

  /**
   * A session's life: whatever was set before, the last `setUser` wins, and
   * `logout`, once or twice, returns the store to its initial state.
   */
  method SessionLifecycle(u1: string, t1: string, u2: string, t2: string)
    returns (afterSecondSet: Session, afterLogout: Session, afterSecondLogout: Session)
    ensures afterSecondSet == Session(Some(u2), Some(t2))
    ensures afterLogout == SignedOut && afterSecondLogout == SignedOut
  {
    var store := new UserStore();
    store.SetUser(u1, t1);
    store.SetUser(u2, t2);
    afterSecondSet := store.State();
    store.Logout();
    afterLogout := store.State();
    store.Logout();
    afterSecondLogout := store.State();
  }
}
